=== FILE: README.md ===
# Travel service model

This is a Dafny model of the core of a SAP CAP travel-booking service and its report-generating front end. It covers:

- **The service's draft tables and event handlers** (`srv/travel-service.ts`):
  - consecutive TravelID, BookingID and BookingSupplementID numbering on CREATE and NEW;
  - date validation on SAVE;
  - the Trees-for-Tickets green fee;
  - recomputation of a travel's TotalPrice after every UPDATE or DELETE that goes through `update_totals`;
  - the actions acceptTravel, rejectTravel and deductDiscount.
- **The content handling of the invokeLLM action**: isJSON, filterContentFields, the model default and the empty-selection guard.
- **invokeLLMAction in the app** (`app/travel_processor/webapp/ext/utils/LLMUtils.ts`): hyperparameter defaulting, the parameter list it sends, and the error swallowing.

Modules:

- `Wrappers`: `Option` and `Result`, plus SQL `coalesce(x, 0)`.
- `Money`: amounts are integers in thousandths of a currency unit. `RoundDiv` is SQL `round`: the nearest integer, with halves rounded away from zero.
- `TravelRules`:
  - the Travel, Booking and Supplement rows;
  - the pure rules: ID numbering, SAVE errors, green fee, price sums, the derived-columns predicate `DerivedCurrent`, the framework's UPDATE/DELETE on draft rows, and the discount.
- `TravelHandlers`: the class `TravelStore`. It holds the active travels, the Travel drafts (a map keyed by TravelUUID), and the Booking and Supplement draft tables. Its methods are the event handlers, plus `UpdateTotals`, the helper pair `update_totalsGreen` and the total UPDATE.
  - Every handler that changes bookings or supplements keeps the referential integrity of the draft tables (`Valid`).
  - "TotalPrice, GreenFee and TreesPlanted are current" (`CurrentIn`) is kept:
    - by the UPDATE and DELETE handlers, for every travel for which it held before; each of them that goes through `update_totals` also makes its own travel current;
    - by acceptTravel and rejectTravel;
    - by NEW for every other travel. A NEW draft that already carries a price leaves its own travel stale, because NEW does not go through `update_totals`.
  - deductDiscount does not keep it: it changes BookingFee without refreshing GreenFee (see "## Left out").
- `JsValues`: the JavaScript values the front end and the content helpers handle, with truthiness, `||`, and property reads.
- `ContentHelpers`: isJSON, filterContentFields, and the checks invokeLLM makes before calling the LLM.
- `LlmUtils`: invokeLLMAction.

## Model

| member | source | states |
|---|---|---|
| Money.RoundDiv | srv/travel-service.ts:127-128 | SQL round of n/d: within half a unit of n/d; exact halves go away from zero; non-negative for non-negative n |
| Money.RoundDivShift | srv/travel-service.ts:127-128 | adding a whole multiple k·d to a non-negative numerator shifts the rounded result by exactly k |
| TravelRules.MaxOf | srv/travel-service.ts:24-26 | SQL max: NULL exactly for no rows; otherwise a member that is at least every row |
| TravelRules.NextId | srv/travel-service.ts:27 | `++maxID`: greater than every id; 1 when there are none (NULL becomes 0); otherwise the maximum plus one |
| TravelRules.NewTravelId | srv/travel-service.ts:23-28 | the new TravelID is greater than every existing TravelID; 1 for an empty table; otherwise one more than some existing TravelID |
| TravelRules.NewBookingId | srv/travel-service.ts:30-34 | the intended numbering (see "## Findings"): the new BookingID is greater than every BookingID under the same travel; 1 for the first booking; otherwise one more than a sibling's |
| TravelRules.NewSupplementId | srv/travel-service.ts:38-43 | the intended numbering: the same for BookingSupplementID among the supplements of the same booking |
| TravelRules.BookingIdsMatching | srv/travel-service.ts:31-33 | the BookingIDs `max(BookingID) ... where(req.data)` ranges over as written: exactly those of the bookings of the travel that equal the request on each column it carries (FlightDate, FlightPrice) |
| TravelRules.BookingIdByRequest | srv/travel-service.ts:30-34 | the BookingID as written, max+1 over the matching rows: greater than every matching row's BookingID and one more than some matching row's; 1 when no row matches the request |
| TravelRules.BookingIdsMatchingParentOnly | srv/travel-service.ts:31-33 | without FlightDate and FlightPrice in the request, the filter selects exactly the bookings of the travel |
| TravelRules.BookingIdByRequestParentOnly | srv/travel-service.ts:30-34 | without FlightDate and FlightPrice in the request, the hook as written gives NewBookingId |
| TravelRules.NewBookingIdKeepsDistinct | srv/travel-service.ts:30-34 | appending a booking numbered by NewBookingId keeps the BookingIDs of each travel distinct |
| TravelRules.BookingIdByRequestRepeats | srv/travel-service.ts:30-34 | the witness for the "## Findings" row: a travel with booking 1 (FlightPrice 50.000) and a NEW carrying FlightPrice 100.000 gets BookingID 1 again, and the BookingIDs stop being distinct |
| TravelRules.SupplementIdsMatching | srv/travel-service.ts:39-41 | the BookingSupplementIDs the hook ranges over as written: those of the supplements of the booking that equal the request on SupplementID and Price where it carries them |
| TravelRules.SupplementIdByRequest | srv/travel-service.ts:38-43 | the BookingSupplementID as written, max+1 over the matching rows: greater than every matching row's and one more than some matching row's; 1 when no row matches |
| TravelRules.SupplementIdsMatchingParentOnly | srv/travel-service.ts:39-41 | without SupplementID and Price in the request, the filter selects exactly the supplements of the booking |
| TravelRules.SupplementIdByRequestParentOnly | srv/travel-service.ts:38-43 | without SupplementID and Price in the request, the hook as written gives NewSupplementId |
| TravelRules.NewSupplementIdKeepsDistinct | srv/travel-service.ts:38-43 | appending a supplement numbered by NewSupplementId keeps the BookingSupplementIDs of each booking distinct |
| TravelRules.SupplementIdByRequestRepeats | srv/travel-service.ts:38-43 | the witness for the "## Findings" row: a booking with supplement 1 and a NEW carrying another SupplementID gets BookingSupplementID 1 again |
| TravelHandlers.TravelStore.CreateTravel | srv/travel-service.ts:23-28 | CREATE stores the data with TravelID = NewTravelId, greater than all existing TravelIDs; other rows are unchanged; integrity (`Valid`) is kept |
| TravelHandlers.TravelStore.NewBooking | srv/travel-service.ts:30-36 | NEW appends a booking made from the request's columns, with BookingDate = today and the intended BookingID (NewBookingId, greater than every sibling's); this equals the hook as written (BookingIdByRequest) when the request carries no FlightDate or FlightPrice; distinct BookingIDs per travel stay distinct; a taken key fails and changes nothing; integrity is kept; every other travel stays current; its own travel stays current if the request carries no or a zero FlightPrice, and goes stale if it carries a non-zero one |
| TravelHandlers.TravelStore.NewSupplement | srv/travel-service.ts:38-43 | NEW appends a supplement made from the request's columns, with the intended BookingSupplementID (NewSupplementId); this equals the hook as written (SupplementIdByRequest) when the request carries no SupplementID or Price; distinct IDs per booking stay distinct; a missing parent or a taken key fails and changes nothing; every other travel stays current, and its own too if the request carries no or a zero Price; it goes stale if the request carries a non-zero Price |
| TravelRules.SaveErrors | srv/travel-service.ts:46-52 | the BeginDate error iff BeginDate is set and before today; the EndDate error iff both dates are set and BeginDate > EndDate; with both set, no errors iff today <= BeginDate <= EndDate (equal dates pass); a missing BeginDate raises nothing, and a missing EndDate only the BeginDate check (JavaScript compares null and undefined false); both in source order when both fire |
| TravelRules.TravelIds | srv/travel-service.ts:24-26 | the TravelID column of the active travels: every row's ID and only those |
| TravelRules.BookingIdsUnder | srv/travel-service.ts:31-33 | the BookingIDs that `where(req.data)` selects when the request carries only the parent key: those of the bookings of the same travel, and only those |
| TravelRules.SupplementIdsUnder | srv/travel-service.ts:39-41 | when the request carries only the parent key: the BookingSupplementIDs of the supplements of the same booking, and only those |
| TravelRules.TenthOfFeeRounded | srv/travel-service.ts:104-105 | `round(BookingFee * 0.1, 0)`: within half a unit of a tenth of the fee, an exact half going away from zero (a fee of 5.000 gives 1); NULL stays NULL |
| TravelRules.GreenFeeFor | srv/travel-service.ts:97-110 | GoGreen: a whole amount within half a unit of a tenth of the fee, an exact half going away from zero (a fee of 5.000 gives 1.000); NULL for a NULL fee; otherwise 0 |
| TravelRules.TreesMatchGreenFee | srv/travel-service.ts:102-108 | TreesPlanted (TreesPlantedFor) and GreenFee are set together, and GreenFee equals TreesPlanted whole currency units |
| TravelRules.FlightPriceSumBounds | srv/travel-service.ts:87 | the flight sum of a travel is 0 when none of its bookings has a FlightPrice, and non-negative when their prices are |
| TravelRules.SupplementPriceSumBounds | srv/travel-service.ts:88 | the supplement sum of a travel is 0 when none of its supplements has a Price, and non-negative when their prices are |
| TravelRules.ExpectedTotalBounds | srv/travel-service.ts:84-89 | the stored TotalPrice is coalesce(BookingFee,0) + coalesce(GreenFee,0) (Coalesce: NULL counts as 0) for a travel without bookings or supplements, and at least that with non-negative prices |
| TravelRules.DerivedCurrent | srv/travel-service.ts:84-108 | a current travel has a TotalPrice and GreenFee/TreesPlanted set together; without GoGreen both are 0 and TotalPrice = fee + flight sum + supplement sum |
| TravelRules.Refreshed | srv/travel-service.ts:83-91 | after update_totalsGreen and the total UPDATE, all derived columns are current (TotalPrice uses the refreshed GreenFee); no other column changes |
| TravelHandlers.TravelStore.UpdateTotals | srv/travel-service.ts:82-91 | the travel's row becomes its Refreshed version and is current; the other drafts are unchanged; integrity is kept |
| TravelRules.FlightSumAppend | srv/travel-service.ts:87 | a new booking adds exactly its own share (FlightShare: its FlightPrice with NULL as 0 for its own travel, 0 for another) to the flight sum |
| TravelRules.SupplementSumAppend | srv/travel-service.ts:88 | a new supplement adds exactly its own share (SupplementShare: its Price with NULL as 0 for its own travel, 0 for another) to the supplement sum |
| TravelRules.FlightSumPointwise | srv/travel-service.ts:87 | two booking tables whose rows contribute alike to a travel give the same sum |
| TravelRules.SupplementSumPointwise | srv/travel-service.ts:88 | two supplement tables whose rows contribute alike to a travel give the same sum |
| TravelRules.FlightSumAfterDelete | srv/travel-service.ts:87 | deleting bookings of other travels leaves a travel's flight sum unchanged |
| TravelRules.SupplementSumAfterDelete | srv/travel-service.ts:88 | deleting supplements of other travels leaves a travel's supplement sum unchanged |
| TravelRules.SupplementSumAfterCascade | srv/travel-service.ts:88 | the supplements removed with a booking of another travel leave a travel's supplement sum unchanged |
| TravelRules.FlightSumAfterPatch | srv/travel-service.ts:87 | an UPDATE of bookings changes a travel's flight sum only if it sets FlightPrice on one of that travel's bookings |
| TravelRules.SupplementSumAfterPatch | srv/travel-service.ts:88 | the same for supplement Price |
| TravelRules.TravelRecomputesExactly | srv/travel-service.ts:58-60 | update_totals (Recomputes: some watched field among the request's keys) recomputes a Travel UPDATE exactly when its data carries BookingFee or GoGreen |
| TravelRules.BookingRecomputesExactly | srv/travel-service.ts:61-63 | a Booking UPDATE recomputes exactly when its data carries FlightPrice |
| TravelRules.SupplementRecomputesExactly | srv/travel-service.ts:64-66 | a Supplement UPDATE recomputes exactly when its data carries Price |
| TravelRules.PatchTravel | srv/travel-service.ts:82 | the generic UPDATE of a travel: each column the request sets (BookingFee, GoGreen, BeginDate, EndDate, Description) takes the request's value, each one it does not set is kept; the derived columns, TravelID and status are kept (the patchable column set is an assumption, see "## Left out") |
| TravelRules.PatchBooking | srv/travel-service.ts:82 | keys, travel, BookingID and BookingDate are kept; FlightDate and FlightPrice each take the data's value when it sets them and are kept otherwise |
| TravelRules.PatchSupplement | srv/travel-service.ts:82 | keys, travel and BookingSupplementID are kept; SupplementID and Price each take the data's value when it sets them and are kept otherwise |
| TravelRules.PatchBookings | srv/travel-service.ts:82 | UPDATE patches exactly the rows with the key, in place; the table's length is unchanged |
| TravelRules.PatchSupplements | srv/travel-service.ts:82 | the same for supplements |
| TravelRules.FindBooking | srv/travel-service.ts:79-81 | the row read before the UPDATE or DELETE: a row with the key, or none exactly when no row has it |
| TravelRules.FindSupplement | srv/travel-service.ts:79-81 | the same for supplements |
| TravelRules.DeleteBookingRows | srv/travel-service.ts:82 | DELETE keeps exactly the rows without the key |
| TravelRules.DeleteSupplementRows | srv/travel-service.ts:82 | the same for supplements |
| TravelRules.DeleteSupplementsOf | srv/travel-service.ts:67 | a booking's deletion keeps exactly the supplements of other bookings |
| TravelHandlers.PatchBookingsKeepsIntegrity | srv/travel-service.ts:79-82 | a Booking UPDATE keeps every booking key in one travel, and keeps every supplement under a booking of the same travel |
| TravelHandlers.PatchSupplementsKeepsIntegrity | srv/travel-service.ts:79-82 | the same for a Supplement UPDATE |
| TravelHandlers.DeleteBookingKeepsIntegrity | srv/travel-service.ts:67 | deleting a booking with its supplements leaves no orphaned supplement |
| TravelHandlers.DeleteSupplementKeepsIntegrity | srv/travel-service.ts:68-70 | deleting a supplement keeps integrity |
| TravelHandlers.AppendBookingKeepsIntegrity | srv/travel-service.ts:30-36 | a new booking with a fresh key keeps integrity |
| TravelHandlers.AppendSupplementKeepsIntegrity | srv/travel-service.ts:38-43 | a new supplement placed in its parent booking's travel keeps integrity |
| TravelHandlers.AppendBookingKeepsCurrent | srv/travel-service.ts:30-36 | a new booking leaves every other current travel current, and its own too when it has no (or a zero) FlightPrice |
| TravelHandlers.AppendBookingMakesStale | srv/travel-service.ts:30-36 | a new booking with a non-zero FlightPrice leaves its current travel's TotalPrice stale |
| TravelHandlers.AppendSupplementKeepsCurrent | srv/travel-service.ts:38-43 | a new supplement leaves every other current travel current, and its own too when it has no (or a zero) Price |
| TravelHandlers.AppendSupplementMakesStale | srv/travel-service.ts:38-43 | a new supplement with a non-zero Price leaves its current travel's TotalPrice stale |
| TravelHandlers.PatchBookingsKeepsCurrent | srv/travel-service.ts:78-82 | a Booking UPDATE leaves every current travel current, except the booking's own travel when FlightPrice is set |
| TravelHandlers.PatchSupplementsKeepsCurrent | srv/travel-service.ts:78-82 | the same for a Supplement UPDATE and Price |
| TravelHandlers.DeleteBookingKeepsCurrent | srv/travel-service.ts:67 | deleting a booking and its supplements leaves every other current travel current |
| TravelHandlers.DeleteSupplementKeepsCurrent | srv/travel-service.ts:68-70 | deleting a supplement leaves every other current travel current |
| TravelHandlers.RefreshKeepsCurrent | srv/travel-service.ts:83-91 | recomputing one travel makes it current and leaves every other current travel current |
| TravelHandlers.TravelStore.UpdateTravel | srv/travel-service.ts:58-92 | missing key: NotFound, no change; without BookingFee/GoGreen: only the patch; otherwise the patched row is refreshed and current; currentness is kept |
| TravelHandlers.TravelStore.UpdateBooking | srv/travel-service.ts:58-92 | without FlightPrice: the patch only, or NotFound; with it: TypeError and no change if the booking or its travel is missing, otherwise patch and then refresh of the booking's travel |
| TravelHandlers.TravelStore.UpdateSupplement | srv/travel-service.ts:58-92 | the same for Price on a supplement |
| TravelHandlers.TravelStore.DeleteBooking | srv/travel-service.ts:67-92 | deletes the booking and its supplements, then refreshes its travel; a missing row fails with TypeError and changes nothing; integrity and currentness are kept |
| TravelHandlers.TravelStore.DeleteSupplement | srv/travel-service.ts:68-92 | deletes the supplement, then refreshes its travel; a missing row fails and changes nothing |
| TravelHandlers.TravelStore.AcceptTravel | srv/travel-service.ts:117-119 | the status becomes Accepted; no other field or row changes; integrity and currentness are kept |
| TravelHandlers.TravelStore.RejectTravel | srv/travel-service.ts:120-122 | the status becomes Canceled; no other field or row changes; integrity and currentness are kept |
| TravelRules.DiscountApplies | srv/travel-service.ts:125-126 | the UPDATE's row filter: only rows with a BookingFee and a status other than Accepted match; Open and Canceled rows with a fee match; a NULL status never matches |
| TravelRules.WithDiscount | srv/travel-service.ts:124-128 | BookingFee becomes fee·(100−p)/100 and TotalPrice becomes TotalPrice − fee·p/100, both from the old fee and each rounded to thousandths, an exact half going away from zero; a NULL total stays NULL; nothing else changes |
| TravelRules.DiscountKeepsTotalEquation | srv/travel-service.ts:127-128 | for 0 ≤ p ≤ 100 and non-negative amounts, a total equal to BookingFee + rest remains equal to new BookingFee + rest |
| TravelRules.DiscountedFeeBounds | srv/travel-service.ts:128 | for 0 ≤ p ≤ 100 the discounted fee lies between 0 and the old fee |
| TravelHandlers.DiscountOutcomeOf | srv/travel-service.ts:125-150 | applied iff status set, not Accepted and a fee present; otherwise missing travel, "approved already", "no booking fee" in that order; a NULL status with a fee falls through every guard |
| TravelHandlers.TravelStore.DeductDiscount | srv/travel-service.ts:123-154 | the outcome is DiscountOutcomeOf the row; on success only that row changes, to WithDiscount; every rejection leaves the drafts unchanged; integrity is kept |
| ContentHelpers.IsJson | srv/travel-service.ts:274-284 | false for every non-string; for a string, true exactly when JSON.parse accepts it |
| ContentHelpers.Summarize | srv/travel-service.ts:263-270 | one element becomes an object with exactly the six report fields in order, each copied from the element (PropertyOf: the first property with the key, undefined for a primitive or an array); null or undefined (Nullish) throws |
| ContentHelpers.SummarizeAll | srv/travel-service.ts:263-270 | the map throws iff some element is null or undefined; otherwise it has the same length, and element i summarises input i |
| ContentHelpers.FilterContentFields | srv/travel-service.ts:262-271 | a non-array throws; otherwise length and order are kept, and each element holds exactly TravelID, BeginDate, EndDate, Description, TotalPrice, TravelStatus_code, copied from the input |
| ContentHelpers.SummaryIsFixed | srv/travel-service.ts:263-270 | projecting an already projected element gives it back |
| ContentHelpers.FilterContentFieldsIdempotent | srv/travel-service.ts:262-271 | filtering a filtered array changes nothing |
| ContentHelpers.ModelFor | srv/travel-service.ts:167 | the model is model_name unless it is null or undefined, then "gpt-4o" |
| ContentHelpers.CheckContent | srv/travel-service.ts:167-181 | JSON for an empty array fails with "No content provided"; other JSON fails iff filterContentFields throws on it; anything that is not JSON passes; on success the model is ModelFor(model_name) |
| ContentHelpers.NonArrayJsonIsRefused | srv/travel-service.ts:171-180 | as written, JSON content that is not an array always fails before the LLM call |
| ContentHelpers.ChatMessageFortyTwoIsRefused | srv/travel-service.ts:171-180 | the witness for the first "## Findings" row, not a general property: the content "42" fails |
| ContentHelpers.CheckContentArraysOnly | srv/travel-service.ts:169-180 | corrected check: the empty array fails; an array with a null element fails; JSON that is not an array passes with the model |
| ContentHelpers.ArraysOnlyAgreesElsewhere | srv/travel-service.ts:169-180 | the corrected check agrees with the check as written on all content except JSON that is not an array |
| JsValues.Truthy | app/travel_processor/webapp/ext/utils/LLMUtils.ts:17-20 | the test `\|\|` makes: null, undefined, 0, "" and false are falsy; arrays and objects are truthy |
| JsValues.Lookup | srv/travel-service.ts:263-270 | a property read on an object: undefined when no property has the key, otherwise the value of the first property with it |
| JsValues.Or | app/travel_processor/webapp/ext/utils/LLMUtils.ts:17-20 | `a \|\| b` is truthy exactly when one of a and b is, is always one of the two, and is the first truthy one |
| LlmUtils.StoredSetting | app/travel_processor/webapp/ext/utils/LLMUtils.ts:17-20 | a setting read through `_hyperparams \|\| {}`: undefined when nothing truthy is stored or the store is not an object; otherwise the stored property |
| LlmUtils.WithDefault | app/travel_processor/webapp/ext/utils/LLMUtils.ts:19-20 | `setting \|\| fallback` with a truthy fallback is truthy; it is the setting when truthy, else the fallback |
| LlmUtils.ResolveHyperparameters | app/travel_processor/webapp/ext/utils/LLMUtils.ts:17-20 | tone, maxTokens and temperature are each the stored value when truthy, else "", 100 and 0.1; a stored 0 or "" counts as absent; the resolved maxTokens and temperature are always truthy |
| LlmUtils.ZeroTemperatureIsReplaced | app/travel_processor/webapp/ext/utils/LLMUtils.ts:20 | a stored temperature of 0 is sent as 0.1 |
| LlmUtils.ParameterBag | app/travel_processor/webapp/ext/utils/LLMUtils.ts:26-44 | exactly the five names content, tone, maxTokens, temperature, template, in that order, each name carrying its own value |
| LlmUtils.InvokeLLMAction | app/travel_processor/webapp/ext/utils/LLMUtils.ts:17-54 | sends the parameter bag of the resolved hyperparameters; a rejected call, or a null or undefined response whose `value` read throws (Get), gives undefined instead of an error; an object response gives its `value` |
| LlmUtils.SentLimitsAreSet | app/travel_processor/webapp/ext/utils/LLMUtils.ts:19-44 | every call sends a truthy maxTokens and temperature, whatever is stored |

## Left out

- The LLM call of invokeLLM (srv/travel-service.ts:183-238) is not modelled: the content filter configuration, the orchestration client, `chatCompletion` and its error rewrite are calls into a foreign service. `CheckContent` stops where that call begins. The result of filterContentFields is computed and never used by the source, so only its throwing matters there.
- executeQuery (srv/travel-service.ts:241-255) is not modelled: it passes raw SQL through to the database.
- `JSON.parse` is a parameter (`Parser`), not a JSON grammar.
- Numbers in the JS value model are exact reals. NaN, the infinities and floating-point rounding are not modelled. Money in the service is integers in thousandths, and `round(…, 3)` and `round(…, 0)` are exact integer roundings (`RoundDiv`). Floating-point error in `BookingFee * 0.1` and in `percent / 100` is not modelled.
- Dates are day numbers, and `today()` is a parameter. A missing BeginDate or EndDate is None.
- Patches set a column or leave it alone. An UPDATE that sets a column to NULL is not modelled.
- The generic UPDATE/DELETE that `next()` performs is modelled as: it patches or deletes the rows with the key, and gives NotFound when no row has it. Deleting a booking removes its supplements, because each booking is a composition of its supplements. These are framework behaviours outside the source.
- The NEW hooks' `where(req.data)` is modelled as written by BookingIdByRequest and SupplementIdByRequest: the request carries the parent key and the columns of `BookingPatch` or `SupplementPatch`, and a row must equal it on each. The handlers use the intended numbering over all siblings (see "## Findings").
- acceptTravel, rejectTravel and deductDiscount are modelled on the Travel drafts.
- TravelRules.PatchTravel: the columns a Travel UPDATE may carry are BookingFee, GoGreen, BeginDate, EndDate and Description. That TravelID, the status and the derived columns GreenFee, TreesPlanted and TotalPrice are never set by a client request is an assumption about the service definition (read-only annotations), which no handler line shows.
- TravelHandlers.TravelStore.NewSupplement: the new supplement's travel (`to_Travel`) is taken to be its booking's travel. Lines 38-43 do not set it; the model assumes the request or the framework supplies it, and the integrity invariant depends on it. An absent SupplementID is stored as "".
- TravelHandlers.TravelStore.NewBooking, TravelHandlers.TravelStore.NewSupplement: the request's columns are the parent key and those of `BookingPatch` and `SupplementPatch`. A request that also carries BookingID, BookingDate, BookingSupplementID or the new row's own key is not modelled: the source would filter the maximum on those columns too before overwriting them.
- TravelHandlers.TravelStore.NewBooking, TravelHandlers.TravelStore.NewSupplement: the `DuplicateKey` failure for a taken key and the `NotFound` failure for a missing parent booking are the database's and the framework's behaviour, not lines 30-43.
- TravelHandlers.DiscountOutcomeOf: a NULL status is taken never to match `TravelStatus.code != 'A'`, as in SQL, where `<>` with NULL is unknown. If the query language compares null-safely, a travel with a NULL status and a fee is discounted instead of ending with `NoEffect`.
- TravelHandlers.TravelStore.AcceptTravel, TravelHandlers.TravelStore.RejectTravel: a missing key changes nothing. The framework's own 404 for a missing subject is not modelled.
- TravelHandlers.DiscountOutcomeOf: the missing-travel branch is modelled as a failure (`TravelMissing`). Its 404 message reads `ID` of the missing row, so in the source that request fails with a TypeError instead. The messages are not modelled.
- TravelRules.WithDiscount: deductDiscount does not refresh GreenFee or TreesPlanted after changing BookingFee. The model does the same, so a discounted travel need not be `CurrentIn` afterwards. `DiscountKeepsTotalEquation` states what is kept instead.
- TravelHandlers.TravelStore.CreateTravel: this model assumes no concurrent creates. The rest of CREATE (draft activation) is the framework's.
- The front end's `getController`, `getExtensionAPI` and `editFlow.invokeAction` are not modelled. The action call is the parameter `invoke`. `console.log` is left out.
- The UI files (DialogUtils.ts, ButtonUtils.ts, GenerateReport.ts, ListReportExtension.controller.ts, QueryUtils.ts) are not part of this model.

## Findings

| source | as written | input that shows it | evidently intended | confidence | as-written member | corrected member |
|---|---|---|---|---|---|---|
| srv/travel-service.ts:171-180 | any content that `JSON.parse` accepts is passed to filterContentFields, which calls `.map` on it | the content `"42"`, or `{"TravelID":1}`, or `"null"`: the parse succeeds, `.map` is not a function, and invokeLLM throws before the LLM call | only a JSON array (a report selection) is filtered; other JSON content is sent as it is, like non-JSON text | medium, not executed | ContentHelpers.CheckContent (ContentHelpers.NonArrayJsonIsRefused, ContentHelpers.ChatMessageFortyTwoIsRefused) | ContentHelpers.CheckContentArraysOnly (ContentHelpers.ArraysOnlyAgreesElsewhere) |
| srv/travel-service.ts:30-43 | the maximum BookingID (BookingSupplementID) is taken over the rows that equal `req.data` on every column the NEW request carries, not over all siblings under the parent | a travel with booking 1 at FlightPrice 50.000 and a NEW booking carrying FlightPrice 100.000: no row matches, maxID is NULL, and the new booking gets BookingID 1 again; likewise a NEW supplement carrying a SupplementID no sibling has | consecutive numbers under the parent, as the comment at lines 19-21 says: the maximum over all siblings | low, not executed; the request normally carries only the parent key, where both agree | TravelRules.BookingIdByRequest (TravelRules.BookingIdByRequestRepeats), TravelRules.SupplementIdByRequest (TravelRules.SupplementIdByRequestRepeats) | TravelRules.NewBookingId (TravelRules.NewBookingIdKeepsDistinct), TravelRules.NewSupplementId (TravelRules.NewSupplementIdKeepsDistinct) |

=== FILE: content_helpers.dfy ===
/**
 * The content handling of TravelService's invokeLLM action: isJSON,
 * filterContentFields, the model default and the checks made on the
 * content before the LLM is called. JSON.parse itself is a parameter.
 */
module ContentHelpers {
  import opened Wrappers
  import opened JsValues

  /** The travel columns a report is built from, in the order filterContentFields writes them. */
  const ContentFields: seq<string> := ["TravelID", "BeginDate", "EndDate", "Description", "TotalPrice", "TravelStatus_code"]

  const DefaultModel: string := "gpt-4o"

  /** `JSON.parse`: the value a text denotes, or None where it throws. */
  type Parser = string -> Option<JsValue>

  /** isJSON: a string that JSON.parse accepts. */
  predicate IsJson(content: JsValue, parse: Parser): (r: bool)
    ensures !content.Str? ==> !r
    ensures content.Str? ==> (r <==> parse(content.s).Some?)
  {
    content.Str? && parse(content.s).Some?
  }

  // ---------------------------------------------------------------------
  // filterContentFields
  // ---------------------------------------------------------------------

  /** `out` holds exactly the six report columns of `item`, in order. */
  ghost predicate IsSummaryOf(out: JsValue, item: JsValue)
  {
    && !Nullish(item)
    && out.Obj?
    && Keys(out.props) == ContentFields
    && forall k :: 0 <= k < |ContentFields| ==> out.props[k].value == PropertyOf(item, ContentFields[k])
  }

  /** The object literal built for one element; reading a property of null or undefined throws. */
  function Summarize(item: JsValue): (r: Result<JsValue, JsError>)
    ensures r.Failure? <==> Nullish(item)
    ensures r.Success? ==> IsSummaryOf(r.value, item)
  {
    if Nullish(item) then Failure(TypeError)
    else
      Success(Obj([
        Property("TravelID", PropertyOf(item, "TravelID")),
        Property("BeginDate", PropertyOf(item, "BeginDate")),
        Property("EndDate", PropertyOf(item, "EndDate")),
        Property("Description", PropertyOf(item, "Description")),
        Property("TotalPrice", PropertyOf(item, "TotalPrice")),
        Property("TravelStatus_code", PropertyOf(item, "TravelStatus_code"))]))
  }

  /** `items.map(...)` with Summarize: the first element that throws ends the map. */
  function SummarizeAll(items: seq<JsValue>): (r: Result<seq<JsValue>, JsError>)
    ensures r.Failure? <==> exists i :: 0 <= i < |items| && Nullish(items[i])
    ensures r.Success? ==> |r.value| == |items| && forall i :: 0 <= i < |items| ==> IsSummaryOf(r.value[i], items[i])
  {
    if items == [] then Success([])
    else
      match Summarize(items[0])
      case Failure(e) => Failure(e)
      case Success(first) =>
        match SummarizeAll(items[1..])
        case Failure(e) =>
          assert forall i :: 1 <= i < |items| ==> items[1..][i - 1] == items[i];
          Failure(e)
        case Success(rest) =>
          assert forall i :: 1 <= i < |items| ==> items[1..][i - 1] == items[i];
          Success([first] + rest)
  }

  /**
   * filterContentFields: each element projected onto the six report
   * columns, length and order kept. `.map` on anything but an array throws.
   */
  function FilterContentFields(raw: JsValue): (r: Result<JsValue, JsError>)
    ensures r.Failure? <==> !raw.Arr? || exists i :: 0 <= i < |raw.items| && Nullish(raw.items[i])
    ensures r.Success? ==>
      && r.value.Arr?
      && |r.value.items| == |raw.items|
      && forall i :: 0 <= i < |raw.items| ==> IsSummaryOf(r.value.items[i], raw.items[i])
  {
    if !raw.Arr? then Failure(TypeError)
    else
      match SummarizeAll(raw.items)
      case Failure(e) => Failure(e)
      case Success(summaries) => Success(Arr(summaries))
  }

  /** Looking up a key that no earlier property has finds that property's value. */
  lemma LookupFirst(props: seq<Property>, i: nat)
    requires i < |props|
    requires forall j :: 0 <= j < i ==> props[j].key != props[i].key
    ensures Lookup(props, props[i].key) == props[i].value
  {
  }

  /** Projecting a summary again gives the same summary. */
  lemma SummaryIsFixed(out: JsValue, item: JsValue)
    requires IsSummaryOf(out, item)
    ensures Summarize(out) == Success(out)
  {
    var ps := out.props;
    assert |ps| == 6;
    forall k | 0 <= k < 6 ensures ps[k].key == ContentFields[k] {
      assert Keys(ps)[k] == ps[k].key;
    }
    forall k | 0 <= k < 6 ensures PropertyOf(out, ps[k].key) == ps[k].value {
      LookupFirst(ps, k);
    }
    assert ps == [ps[0], ps[1], ps[2], ps[3], ps[4], ps[5]];
  }

  /** filterContentFields is idempotent. */
  lemma FilterContentFieldsIdempotent(raw: JsValue)
    requires FilterContentFields(raw).Success?
    ensures FilterContentFields(FilterContentFields(raw).value) == FilterContentFields(raw)
  {
    var out := FilterContentFields(raw).value;
    SummarizeAllFixed(out.items, raw.items);
  }

  lemma {:induction false} SummarizeAllFixed(outs: seq<JsValue>, items: seq<JsValue>)
    requires |outs| == |items|
    requires forall i :: 0 <= i < |items| ==> IsSummaryOf(outs[i], items[i])
    ensures SummarizeAll(outs) == Success(outs)
  {
    if outs != [] {
      SummaryIsFixed(outs[0], items[0]);
      forall i | 0 <= i < |items| - 1 ensures IsSummaryOf(outs[1..][i], items[1..][i]) {
        assert outs[1..][i] == outs[i + 1] && items[1..][i] == items[i + 1];
      }
      SummarizeAllFixed(outs[1..], items[1..]);
      assert SummarizeAll(outs) == Success([outs[0]] + outs[1..]);
      assert [outs[0]] + outs[1..] == outs;
    }
  }

  // ---------------------------------------------------------------------
  // invokeLLM: the checks before the LLM call
  // ---------------------------------------------------------------------

  /** Why invokeLLM throws before calling the LLM. */
  datatype ContentError =
    | NoContentProvided  // "No content provided. Please select at least one line for the report."
    | ContentTypeError   // filterContentFields threw

  /** `model_name ?? "gpt-4o"`. */
  function ModelFor(modelName: JsValue): (r: JsValue)
    ensures Nullish(modelName) ==> r == Str(DefaultModel)
    ensures !Nullish(modelName) ==> r == modelName
  {
    if Nullish(modelName) then Str(DefaultModel) else modelName
  }

  /**
   * What invokeLLM does with its content before the LLM is called: the
   * model it will use, or the error it throws. JSON for an empty array is
   * refused; any other JSON is passed through filterContentFields.
   */
  function CheckContent(content: JsValue, modelName: JsValue, parse: Parser): (r: Result<JsValue, ContentError>)
    ensures r == Failure(NoContentProvided) <==> IsJson(content, parse) && parse(content.s).value == Arr([])
    ensures r == Failure(ContentTypeError) <==>
      IsJson(content, parse) && parse(content.s).value != Arr([]) && FilterContentFields(parse(content.s).value).Failure?
    ensures r.Success? ==> r.value == ModelFor(modelName)
    ensures !IsJson(content, parse) ==> r == Success(ModelFor(modelName))
  {
    var model := ModelFor(modelName);
    if IsJson(content, parse) then
      var raw := parse(content.s).value;
      if raw.Arr? && |raw.items| == 0 then Failure(NoContentProvided)
      else if FilterContentFields(raw).Failure? then Failure(ContentTypeError)
      else Success(model)
    else Success(model)
  }

  /** As written, any JSON content that is not an array makes invokeLLM throw before the LLM is called. */
  lemma NonArrayJsonIsRefused(content: JsValue, modelName: JsValue, parse: Parser)
    requires IsJson(content, parse) && !parse(content.s).value.Arr?
    ensures CheckContent(content, modelName, parse) == Failure(ContentTypeError)
  {
  }

  /** A chat message "42" is valid JSON for a number, so the call fails although the content is not empty. */
  lemma ChatMessageFortyTwoIsRefused()
    ensures
      var parse: Parser := s => if s == "42" then Some(Num(42.0)) else None;
      CheckContent(Str("42"), Undefined, parse) == Failure(ContentTypeError)
  {
  }

  /** The check with filterContentFields applied to arrays only, as its comment and the report flow use it. */
  function CheckContentArraysOnly(content: JsValue, modelName: JsValue, parse: Parser): (r: Result<JsValue, ContentError>)
    ensures r == Failure(NoContentProvided) <==> IsJson(content, parse) && parse(content.s).value == Arr([])
    ensures r == Failure(ContentTypeError) <==>
      && IsJson(content, parse)
      && parse(content.s).value.Arr?
      && exists i :: 0 <= i < |parse(content.s).value.items| && Nullish(parse(content.s).value.items[i])
    ensures r.Success? ==> r.value == ModelFor(modelName)
    ensures IsJson(content, parse) && !parse(content.s).value.Arr? ==> r == Success(ModelFor(modelName))
  {
    var model := ModelFor(modelName);
    if IsJson(content, parse) then
      var raw := parse(content.s).value;
      if raw.Arr? && |raw.items| == 0 then Failure(NoContentProvided)
      else if raw.Arr? && FilterContentFields(raw).Failure? then Failure(ContentTypeError)
      else Success(model)
    else Success(model)
  }

  /** The corrected check differs from the one as written only on JSON content that is not an array. */
  lemma ArraysOnlyAgreesElsewhere(content: JsValue, modelName: JsValue, parse: Parser)
    requires !IsJson(content, parse) || parse(content.s).value.Arr?
    ensures CheckContentArraysOnly(content, modelName, parse) == CheckContent(content, modelName, parse)
  {
  }
}

=== FILE: js_values.dfy ===
/**
 * The JavaScript values that the content helpers and the hyperparameter
 * code handle: what `JSON.parse` yields, plus `undefined`. Numbers are
 * exact reals (NaN and the infinities are not modelled); an object is the
 * list of its own properties in insertion order.
 */
module JsValues {
  import opened Wrappers

  datatype JsValue =
    | Undefined
    | Null
    | Bool(b: bool)
    | Num(n: real)
    | Str(s: string)
    | Arr(items: seq<JsValue>)
    | Obj(props: seq<Property>)

  datatype Property = Property(key: string, value: JsValue)

  /** A TypeError thrown by the engine, e.g. on reading a property of null. */
  datatype JsError = TypeError

  /** Whether `if (v)` takes the branch. */
  predicate Truthy(v: JsValue): (r: bool)
    ensures Nullish(v) ==> !r
    ensures v == Num(0.0) || v == Str("") || v == Bool(false) ==> !r
    ensures v.Arr? || v.Obj? ==> r
  {
    match v
    case Undefined => false
    case Null => false
    case Bool(b) => b
    case Num(n) => n != 0.0
    case Str(s) => s != ""
    case Arr(_) => true
    case Obj(_) => true
  }

  predicate Nullish(v: JsValue): (r: bool)
    ensures r <==> v == Undefined || v == Null
  {
    v.Undefined? || v.Null?
  }

  /** `a || b`: truthy exactly when one of the operands is, and then equal to the first truthy one. */
  function Or(a: JsValue, b: JsValue): (r: JsValue)
    ensures Truthy(r) <==> Truthy(a) || Truthy(b)
    ensures r == a || r == b
    ensures Truthy(a) ==> r == a
    ensures !Truthy(a) ==> r == b
  {
    if Truthy(a) then a else b
  }

  function Keys(props: seq<Property>): (r: seq<string>)
    ensures |r| == |props|
    ensures forall i :: 0 <= i < |props| ==> r[i] == props[i].key
  {
    seq(|props|, i requires 0 <= i < |props| => props[i].key)
  }

  /** The value of the first property with the key, or undefined. */
  function Lookup(props: seq<Property>, key: string): (r: JsValue)
    ensures key !in Keys(props) ==> r == Undefined
    ensures forall i :: 0 <= i < |props| && props[i].key == key && (forall j :: 0 <= j < i ==> props[j].key != key) ==>
      r == props[i].value
  {
    if props == [] then Undefined
    else if props[0].key == key then props[0].value
    else
      assert forall k :: k in Keys(props[1..]) ==> k in Keys(props);
      assert forall i :: 1 <= i < |props| ==> props[1..][i - 1] == props[i];
      Lookup(props[1..], key)
  }

  /** `v.key` on a value that is not null or undefined: primitives and arrays have none of the keys used here. */
  function PropertyOf(v: JsValue, key: string): (r: JsValue)
    requires !Nullish(v)
    ensures !v.Obj? ==> r == Undefined
    ensures v.Obj? ==> r == Lookup(v.props, key)
  {
    if v.Obj? then Lookup(v.props, key) else Undefined
  }

  /** `v.key`: a TypeError on null and undefined. */
  function Get(v: JsValue, key: string): (r: Result<JsValue, JsError>)
    ensures r.Failure? <==> Nullish(v)
    ensures r.Success? ==> r.value == PropertyOf(v, key)
  {
    if Nullish(v) then Failure(TypeError) else Success(PropertyOf(v, key))
  }
}

=== FILE: llm_utils.dfy ===
/**
 * invokeLLMAction of the travel processor app: the stored hyperparameters
 * with their defaults, the parameter list handed to the invokeLLM action,
 * and the error swallowing around the call. The action call itself (the
 * edit flow of the UI framework) is a parameter.
 */
module LlmUtils {
  import opened Wrappers
  import opened JsValues

  const DefaultTone: JsValue := Str("")
  const DefaultMaxTokens: JsValue := Num(100.0)
  const DefaultTemperature: JsValue := Num(0.1)

  datatype Hyperparameters = Hyperparameters(tone: JsValue, maxTokens: JsValue, temperature: JsValue)

  /** One entry of `parameterValues`. */
  datatype Parameter = Parameter(name: string, value: JsValue)

  /** `(controller._hyperparams || {}).key`: undefined when nothing (truthy) is stored. */
  function StoredSetting(stored: JsValue, key: string): (r: JsValue)
    ensures !Truthy(stored) ==> r == Undefined
    ensures Truthy(stored) && stored.Obj? ==> r == Lookup(stored.props, key)
    ensures Truthy(stored) && !stored.Obj? ==> r == Undefined
  {
    var bag := Or(stored, Obj([]));
    PropertyOf(bag, key)
  }

  /** `setting || fallback`. */
  function WithDefault(setting: JsValue, fallback: JsValue): (r: JsValue)
    requires Truthy(fallback)
    ensures Truthy(r)
    ensures Truthy(setting) ==> r == setting
    ensures !Truthy(setting) ==> r == fallback
  {
    Or(setting, fallback)
  }

  /**
   * The hyperparameters sent with every call: each stored setting that is
   * truthy, otherwise its default. A stored 0 or "" counts as not set.
   */
  function ResolveHyperparameters(stored: JsValue): (r: Hyperparameters)
    ensures Truthy(r.maxTokens) && Truthy(r.temperature)
    ensures r.tone == (if Truthy(StoredSetting(stored, "tone")) then StoredSetting(stored, "tone") else DefaultTone)
    ensures r.maxTokens == (if Truthy(StoredSetting(stored, "maxTokens")) then StoredSetting(stored, "maxTokens") else DefaultMaxTokens)
    ensures r.temperature == (if Truthy(StoredSetting(stored, "temperature")) then StoredSetting(stored, "temperature") else DefaultTemperature)
    ensures !Truthy(stored) ==> r == Hyperparameters(DefaultTone, DefaultMaxTokens, DefaultTemperature)
  {
    var tone := Or(StoredSetting(stored, "tone"), DefaultTone);
    var tokens := WithDefault(StoredSetting(stored, "maxTokens"), DefaultMaxTokens);
    var temperature := WithDefault(StoredSetting(stored, "temperature"), DefaultTemperature);
    Hyperparameters(tone, tokens, temperature)
  }

  /** A stored temperature of 0 is replaced by 0.1: a deterministic call cannot be requested. */
  lemma ZeroTemperatureIsReplaced(stored: JsValue)
    requires StoredSetting(stored, "temperature") == Num(0.0)
    ensures ResolveHyperparameters(stored).temperature == Num(0.1)
  {
  }

  /** The names in a parameter list, in order. */
  function Names(ps: seq<Parameter>): (r: seq<string>)
    ensures |r| == |ps|
    ensures forall i :: 0 <= i < |ps| ==> r[i] == ps[i].name
  {
    seq(|ps|, i requires 0 <= i < |ps| => ps[i].name)
  }

  /** The value of the first parameter with the name, if any. */
  function ValueOf(ps: seq<Parameter>, name: string): (r: Option<JsValue>)
    ensures r.None? <==> forall i :: 0 <= i < |ps| ==> ps[i].name != name
    ensures forall i :: 0 <= i < |ps| && ps[i].name == name && (forall j :: 0 <= j < i ==> ps[j].name != name) ==>
      r == Some(ps[i].value)
  {
    if ps == [] then None
    else if ps[0].name == name then Some(ps[0].value)
    else
      assert forall i :: 1 <= i < |ps| ==> ps[1..][i - 1] == ps[i];
      ValueOf(ps[1..], name)
  }

  /** A name that no earlier parameter has finds that parameter's value. */
  lemma ValueOfFirst(ps: seq<Parameter>, i: nat)
    requires i < |ps|
    requires forall j :: 0 <= j < i ==> ps[j].name != ps[i].name
    ensures ValueOf(ps, ps[i].name) == Some(ps[i].value)
  {
  }

  const ParameterNames: seq<string> := ["content", "tone", "maxTokens", "temperature", "template"]

  /** The five names of the invokeLLM action's parameters are distinct. */
  lemma ParameterNamesDistinct()
    ensures forall i, j :: 0 <= j < i < |ParameterNames| ==> ParameterNames[j] != ParameterNames[i]
  {
  }

  /** `parameterValues` of the invokeLLM call: five named entries, each carrying its own value. */
  function ParameterBag(content: JsValue, hp: Hyperparameters, template: string): (r: seq<Parameter>)
    ensures Names(r) == ParameterNames
    ensures ValueOf(r, "content") == Some(content)
    ensures ValueOf(r, "tone") == Some(hp.tone)
    ensures ValueOf(r, "maxTokens") == Some(hp.maxTokens)
    ensures ValueOf(r, "temperature") == Some(hp.temperature)
    ensures ValueOf(r, "template") == Some(Str(template))
  {
    var r := [
      Parameter("content", content),
      Parameter("tone", hp.tone),
      Parameter("maxTokens", hp.maxTokens),
      Parameter("temperature", hp.temperature),
      Parameter("template", Str(template))];
    assert Names(r) == ParameterNames;
    ParameterNamesDistinct();
    assert forall i, j :: 0 <= j < i < 5 ==> r[j].name != r[i].name by {
      forall i, j | 0 <= j < i < 5 ensures r[j].name != r[i].name {
        assert Names(r)[i] == r[i].name && Names(r)[j] == r[j].name;
      }
    }
    ValueOfFirst(r, 0);
    ValueOfFirst(r, 1);
    ValueOfFirst(r, 2);
    ValueOfFirst(r, 3);
    ValueOfFirst(r, 4);
    r
  }

  /**
   * invokeLLMAction: `invoke` is the edit flow's invokeAction, None when it
   * rejects (the user declined, or the action failed). The result is the
   * response's `value`; every failure, including reading `value` of an
   * empty response, is caught and yields undefined.
   */
  function InvokeLLMAction(stored: JsValue, template: string, content: JsValue, invoke: seq<Parameter> -> Option<JsValue>): (r: JsValue)
    ensures
      var sent := ParameterBag(content, ResolveHyperparameters(stored), template);
      && (invoke(sent).None? ==> r == Undefined)
      && (invoke(sent).Some? && Nullish(invoke(sent).value) ==> r == Undefined)
      && (invoke(sent).Some? && invoke(sent).value.Obj? ==> r == Lookup(invoke(sent).value.props, "value"))
  {
    var sent := ParameterBag(content, ResolveHyperparameters(stored), template);
    match invoke(sent)
    case None => Undefined
    case Some(response) =>
      match Get(response, "value")
      case Failure(_) => Undefined
      case Success(v) => v
  }

  /** Whatever is stored, every call sends a truthy token limit and temperature. */
  lemma SentLimitsAreSet(stored: JsValue, template: string, content: JsValue)
    ensures
      var sent := ParameterBag(content, ResolveHyperparameters(stored), template);
      && ValueOf(sent, "maxTokens").Some? && Truthy(ValueOf(sent, "maxTokens").value)
      && ValueOf(sent, "temperature").Some? && Truthy(ValueOf(sent, "temperature").value)
  {
  }
}

=== FILE: money.dfy ===
/**
 * Money amounts are decimals with three places (the service's Decimal(16,3)
 * columns), represented exactly as integers counting thousandths.
 * SQL `round(v, k)` of such a value is modelled by RoundDiv: the exact
 * rational n/d rounded to the nearest integer, halves away from zero.
 */
module Money {
  /** An amount in thousandths of the currency unit. */
  type Milli = int

  function Abs(x: int): (r: int)
    ensures r >= 0 && (r == x || r == -x)
  {
    if x < 0 then -x else x
  }

  /** n/d rounded to the nearest integer, a tie going away from zero. */
  function RoundDiv(n: int, d: int): (r: int)
    requires d > 0
    ensures 2 * Abs(n - r * d) <= d
    ensures 2 * Abs(n - r * d) == d ==> Abs(r * d) > Abs(n)
    ensures n >= 0 ==> r >= 0
  {
    if n >= 0 then RoundNonNeg(n, d) else -(RoundNonNeg(-n, d) as int)
  }

  /** Rounding of a non-negative n/d, a tie going up. */
  function RoundNonNeg(n: nat, d: int): (r: nat)
    requires d > 0
    ensures 2 * Abs(n - r * d) <= d
    ensures 2 * Abs(n - r * d) == d ==> r * d > n
  {
    var q := (2 * n + d) / (2 * d);
    var m := (2 * n + d) % (2 * d);
    assert 2 * n + d == (2 * d) * q + m;
    assert 2 * (n - q * d) == m - d;
    q
  }

  /** Rounding commutes with adding a whole multiple of d when both sides are non-negative. */
  lemma RoundDivShift(n: int, k: int, d: int)
    requires d > 0 && n >= 0 && k >= 0
    ensures RoundDiv(n + k * d, d) == RoundDiv(n, d) + k
  {
    var q := (2 * n + d) / (2 * d);
    var m := (2 * n + d) % (2 * d);
    assert 2 * n + d == (2 * d) * q + m;
    assert 2 * (n + k * d) + d == (2 * d) * (q + k) + m;
    DivUnique(2 * (n + k * d) + d, 2 * d, q + k, m);
  }

  lemma DivUnique(a: int, b: int, q: int, m: int)
    requires b > 0 && 0 <= m < b && a == b * q + m
    ensures a / b == q
  {
    var q', m' := a / b, a % b;
    assert b * q + m == b * q' + m';
    if q' < q {
      assert b * (q - q') == b * q - b * q';
      MulAtLeast(b, q - q');
    } else if q' > q {
      assert b * (q' - q) == b * q' - b * q;
      MulAtLeast(b, q' - q);
    }
  }

  lemma MulAtLeast(b: int, t: int)
    requires b > 0 && t >= 1
    ensures b * t >= b
  {
    assert b * t == b * (t - 1) + b;
  }
}

=== FILE: travel_rules.dfy ===
/**
 * The travel-booking domain of TravelService: the rows of the Travel,
 * Booking and BookingSupplement draft tables, and the pure rules that the
 * service's event handlers apply to them.
 *
 * Dates are day numbers (CDS dates compare in calendar order, so only their
 * order matters); amounts are thousandths (see module Money); a NULL column
 * is None.
 */
module TravelRules {
  import opened Wrappers
  import opened Money

  type Uuid = string
  type Date = int

  /** TravelStatus codes 'O', 'A' and 'X'. */
  datatype StatusCode = Open | Accepted | Canceled

  /** A Travel row; its TravelUUID is the key of the table that holds it. */
  datatype Travel = Travel(
    TravelID: int,
    BeginDate: Option<Date>,
    EndDate: Option<Date>,
    BookingFee: Option<Milli>,
    TotalPrice: Option<Milli>,
    GoGreen: bool,
    GreenFee: Option<Milli>,
    TreesPlanted: Option<int>,
    TravelStatus: Option<StatusCode>,
    Description: string)

  datatype Booking = Booking(
    BookingUUID: Uuid,
    TravelUUID: Uuid,
    BookingID: int,
    BookingDate: Date,
    FlightDate: Option<Date>,
    FlightPrice: Option<Milli>)

  datatype Supplement = Supplement(
    BookSupplUUID: Uuid,
    BookingUUID: Uuid,
    TravelUUID: Uuid,
    BookingSupplementID: int,
    SupplementID: string,
    Price: Option<Milli>)

  // ---------------------------------------------------------------------
  // ID assignment: `max(<ID>)` over a table, then `++maxID`
  // ---------------------------------------------------------------------

  /** SQL `max` over a column: NULL (None) for no rows. */
  function MaxOf(xs: seq<int>): (r: Option<int>)
    ensures r.None? <==> xs == []
    ensures r.Some? ==> r.value in xs && forall x :: x in xs ==> x <= r.value
  {
    if xs == [] then None
    else
      var rest := MaxOf(xs[1..]);
      assert xs == [xs[0]] + xs[1..];
      if rest.None? || rest.value <= xs[0] then Some(xs[0]) else rest
  }

  /** `++maxID`: JavaScript turns a NULL maximum into 0 before incrementing. */
  function NextId(ids: seq<int>): (r: int)
    ensures forall x :: x in ids ==> x < r
    ensures ids == [] ==> r == 1
    ensures ids != [] ==> r - 1 in ids
  {
    match MaxOf(ids)
    case None => 1
    case Some(m) => m + 1
  }

  function TravelIds(actives: seq<Travel>): (r: seq<int>)
    ensures forall t :: t in actives ==> t.TravelID in r
    ensures forall x :: x in r ==> exists t :: t in actives && t.TravelID == x
  {
    if actives == [] then []
    else
      var rest := TravelIds(actives[1..]);
      assert actives == [actives[0]] + actives[1..];
      [actives[0].TravelID] + rest
  }

  /** The BookingIDs of the bookings under one travel. */
  function BookingIdsUnder(bookings: seq<Booking>, travel: Uuid): (r: seq<int>)
    ensures forall b :: b in bookings && b.TravelUUID == travel ==> b.BookingID in r
    ensures forall x :: x in r ==> exists b :: b in bookings && b.TravelUUID == travel && b.BookingID == x
  {
    if bookings == [] then []
    else
      var rest := BookingIdsUnder(bookings[1..], travel);
      assert bookings == [bookings[0]] + bookings[1..];
      if bookings[0].TravelUUID == travel then [bookings[0].BookingID] + rest else rest
  }

  /** The BookingSupplementIDs of the supplements under one booking. */
  function SupplementIdsUnder(supplements: seq<Supplement>, booking: Uuid): (r: seq<int>)
    ensures forall s :: s in supplements && s.BookingUUID == booking ==> s.BookingSupplementID in r
    ensures forall x :: x in r ==>
      exists s :: s in supplements && s.BookingUUID == booking && s.BookingSupplementID == x
  {
    if supplements == [] then []
    else
      var rest := SupplementIdsUnder(supplements[1..], booking);
      assert supplements == [supplements[0]] + supplements[1..];
      if supplements[0].BookingUUID == booking then [supplements[0].BookingSupplementID] + rest else rest
  }

  /** TravelID for a Travel being created: one more than the largest existing TravelID. */
  function NewTravelId(actives: seq<Travel>): (r: int)
    ensures forall t :: t in actives ==> t.TravelID < r
    ensures actives == [] ==> r == 1
    ensures actives != [] ==> exists t :: t in actives && t.TravelID == r - 1
  {
    var ids := TravelIds(actives);
    if ids == [] then NextId(ids)
    else
      var r := NextId(ids);
      assert r - 1 in ids;
      r
  }

  /** BookingID for a new booking draft: one more than the largest BookingID under the same travel. */
  function NewBookingId(bookings: seq<Booking>, travel: Uuid): (r: int)
    ensures forall b :: b in bookings && b.TravelUUID == travel ==> b.BookingID < r
    ensures (forall b :: b in bookings ==> b.TravelUUID != travel) ==> r == 1
    ensures (exists b :: b in bookings && b.TravelUUID == travel) ==>
      exists b :: b in bookings && b.TravelUUID == travel && b.BookingID == r - 1
  {
    var ids := BookingIdsUnder(bookings, travel);
    if ids == [] then NextId(ids)
    else
      var r := NextId(ids);
      assert r - 1 in ids;
      r
  }

  /** BookingSupplementID for a new supplement draft: one more than the largest under the same booking. */
  function NewSupplementId(supplements: seq<Supplement>, booking: Uuid): (r: int)
    ensures forall s :: s in supplements && s.BookingUUID == booking ==> s.BookingSupplementID < r
    ensures (forall s :: s in supplements ==> s.BookingUUID != booking) ==> r == 1
    ensures (exists s :: s in supplements && s.BookingUUID == booking) ==>
      exists s :: s in supplements && s.BookingUUID == booking && s.BookingSupplementID == r - 1
  {
    var ids := SupplementIdsUnder(supplements, booking);
    if ids == [] then NextId(ids)
    else
      var r := NextId(ids);
      assert r - 1 in ids;
      r
  }

  // ---------------------------------------------------------------------
  // The NEW hooks' `where(req.data)`, as written
  // ---------------------------------------------------------------------

  /**
   * Whether a booking row passes `where(req.data)` of a NEW: the request
   * carries the parent key and its own columns, and a row passes only when
   * it equals the request on each of them (a NULL column equals nothing).
   */
  predicate MatchesBookingRequest(b: Booking, travel: Uuid, data: BookingPatch)
  {
    && b.TravelUUID == travel
    && (data.FlightDate.None? || b.FlightDate == data.FlightDate)
    && (data.FlightPrice.None? || b.FlightPrice == data.FlightPrice)
  }

  /** The BookingIDs that `max(BookingID) ... where(req.data)` ranges over. */
  function BookingIdsMatching(bookings: seq<Booking>, travel: Uuid, data: BookingPatch): (r: seq<int>)
    ensures forall b :: b in bookings && MatchesBookingRequest(b, travel, data) ==> b.BookingID in r
    ensures forall x :: x in r ==>
      exists b :: b in bookings && MatchesBookingRequest(b, travel, data) && b.BookingID == x
  {
    if bookings == [] then []
    else
      var rest := BookingIdsMatching(bookings[1..], travel, data);
      assert bookings == [bookings[0]] + bookings[1..];
      if MatchesBookingRequest(bookings[0], travel, data) then [bookings[0].BookingID] + rest else rest
  }

  /** The BookingID the NEW hook computes as written: one more than the largest among the matching rows. */
  function BookingIdByRequest(bookings: seq<Booking>, travel: Uuid, data: BookingPatch): (r: int)
    ensures forall b :: b in bookings && MatchesBookingRequest(b, travel, data) ==> b.BookingID < r
    ensures (forall b :: b in bookings ==> !MatchesBookingRequest(b, travel, data)) ==> r == 1
    ensures (exists b :: b in bookings && MatchesBookingRequest(b, travel, data)) ==>
      exists b :: b in bookings && MatchesBookingRequest(b, travel, data) && b.BookingID == r - 1
  {
    var ids := BookingIdsMatching(bookings, travel, data);
    if ids == [] then NextId(ids)
    else
      var r := NextId(ids);
      assert r - 1 in ids;
      r
  }

  lemma {:induction false} BookingIdsMatchingParentOnly(bookings: seq<Booking>, travel: Uuid, data: BookingPatch)
    requires data.FlightDate.None? && data.FlightPrice.None?
    ensures BookingIdsMatching(bookings, travel, data) == BookingIdsUnder(bookings, travel)
  {
    if bookings != [] {
      BookingIdsMatchingParentOnly(bookings[1..], travel, data);
    }
  }

  /** A request that carries only the parent key numbers over all siblings, as NewBookingId does. */
  lemma BookingIdByRequestParentOnly(bookings: seq<Booking>, travel: Uuid, data: BookingPatch)
    requires data.FlightDate.None? && data.FlightPrice.None?
    ensures BookingIdByRequest(bookings, travel, data) == NewBookingId(bookings, travel)
  {
    BookingIdsMatchingParentOnly(bookings, travel, data);
  }

  /** No two bookings of one travel share a BookingID. */
  ghost predicate BookingIdsDistinct(bookings: seq<Booking>)
  {
    forall i, j :: 0 <= i < j < |bookings| && bookings[i].TravelUUID == bookings[j].TravelUUID ==>
      bookings[i].BookingID != bookings[j].BookingID
  }

  /** A booking numbered by NewBookingId keeps the BookingIDs of each travel distinct. */
  lemma NewBookingIdKeepsDistinct(bookings: seq<Booking>, b: Booking)
    requires BookingIdsDistinct(bookings)
    requires b.BookingID == NewBookingId(bookings, b.TravelUUID)
    ensures BookingIdsDistinct(bookings + [b])
  {
    var r := bookings + [b];
    forall i, j | 0 <= i < j < |r| && r[i].TravelUUID == r[j].TravelUUID
      ensures r[i].BookingID != r[j].BookingID
    {
      assert r[i] == bookings[i] && bookings[i] in bookings;
      if j < |bookings| {
        assert r[j] == bookings[j];
      }
    }
  }

  /** As written, a NEW that carries a FlightPrice no sibling has gets BookingID 1 again. */
  lemma BookingIdByRequestRepeats()
    ensures
      var bookings := [Booking("b1", "T", 1, 0, None, Some(50000))];
      var data := BookingPatch(None, Some(100000));
      var b := Booking("b2", "T", BookingIdByRequest(bookings, "T", data), 0, None, data.FlightPrice);
      && BookingIdsDistinct(bookings)
      && b.BookingID == 1
      && !BookingIdsDistinct(bookings + [b])
  {
    var bookings := [Booking("b1", "T", 1, 0, None, Some(50000))];
    var data := BookingPatch(None, Some(100000));
    assert !MatchesBookingRequest(bookings[0], "T", data);
    assert BookingIdsMatching(bookings[1..], "T", data) == [];
    var b := Booking("b2", "T", BookingIdByRequest(bookings, "T", data), 0, None, data.FlightPrice);
    assert b.BookingID == 1;
    var r := bookings + [b];
    assert r[0].TravelUUID == r[1].TravelUUID && r[0].BookingID == r[1].BookingID;
  }

  /** The same filter for a supplement row: parent booking, SupplementID and Price as carried. */
  predicate MatchesSupplementRequest(s: Supplement, booking: Uuid, data: SupplementPatch)
  {
    && s.BookingUUID == booking
    && (data.SupplementID.None? || s.SupplementID == data.SupplementID.value)
    && (data.Price.None? || s.Price == data.Price)
  }

  /** The BookingSupplementIDs that `max(BookingSupplementID) ... where(req.data)` ranges over. */
  function SupplementIdsMatching(supplements: seq<Supplement>, booking: Uuid, data: SupplementPatch): (r: seq<int>)
    ensures forall s :: s in supplements && MatchesSupplementRequest(s, booking, data) ==> s.BookingSupplementID in r
    ensures forall x :: x in r ==>
      exists s :: s in supplements && MatchesSupplementRequest(s, booking, data) && s.BookingSupplementID == x
  {
    if supplements == [] then []
    else
      var rest := SupplementIdsMatching(supplements[1..], booking, data);
      assert supplements == [supplements[0]] + supplements[1..];
      if MatchesSupplementRequest(supplements[0], booking, data) then [supplements[0].BookingSupplementID] + rest
      else rest
  }

  /** The BookingSupplementID the NEW hook computes as written. */
  function SupplementIdByRequest(supplements: seq<Supplement>, booking: Uuid, data: SupplementPatch): (r: int)
    ensures forall s :: s in supplements && MatchesSupplementRequest(s, booking, data) ==> s.BookingSupplementID < r
    ensures (forall s :: s in supplements ==> !MatchesSupplementRequest(s, booking, data)) ==> r == 1
    ensures (exists s :: s in supplements && MatchesSupplementRequest(s, booking, data)) ==>
      exists s :: s in supplements && MatchesSupplementRequest(s, booking, data) && s.BookingSupplementID == r - 1
  {
    var ids := SupplementIdsMatching(supplements, booking, data);
    if ids == [] then NextId(ids)
    else
      var r := NextId(ids);
      assert r - 1 in ids;
      r
  }

  lemma {:induction false} SupplementIdsMatchingParentOnly(supplements: seq<Supplement>, booking: Uuid, data: SupplementPatch)
    requires data.SupplementID.None? && data.Price.None?
    ensures SupplementIdsMatching(supplements, booking, data) == SupplementIdsUnder(supplements, booking)
  {
    if supplements != [] {
      SupplementIdsMatchingParentOnly(supplements[1..], booking, data);
    }
  }

  /** A request that carries only the parent key numbers over all siblings, as NewSupplementId does. */
  lemma SupplementIdByRequestParentOnly(supplements: seq<Supplement>, booking: Uuid, data: SupplementPatch)
    requires data.SupplementID.None? && data.Price.None?
    ensures SupplementIdByRequest(supplements, booking, data) == NewSupplementId(supplements, booking)
  {
    SupplementIdsMatchingParentOnly(supplements, booking, data);
  }

  /** No two supplements of one booking share a BookingSupplementID. */
  ghost predicate SupplementIdsDistinct(supplements: seq<Supplement>)
  {
    forall i, j :: 0 <= i < j < |supplements| && supplements[i].BookingUUID == supplements[j].BookingUUID ==>
      supplements[i].BookingSupplementID != supplements[j].BookingSupplementID
  }

  /** A supplement numbered by NewSupplementId keeps the BookingSupplementIDs of each booking distinct. */
  lemma NewSupplementIdKeepsDistinct(supplements: seq<Supplement>, s: Supplement)
    requires SupplementIdsDistinct(supplements)
    requires s.BookingSupplementID == NewSupplementId(supplements, s.BookingUUID)
    ensures SupplementIdsDistinct(supplements + [s])
  {
    var r := supplements + [s];
    forall i, j | 0 <= i < j < |r| && r[i].BookingUUID == r[j].BookingUUID
      ensures r[i].BookingSupplementID != r[j].BookingSupplementID
    {
      assert r[i] == supplements[i] && supplements[i] in supplements;
      if j < |supplements| {
        assert r[j] == supplements[j];
      }
    }
  }

  /** As written, a NEW that carries a SupplementID no sibling has gets BookingSupplementID 1 again. */
  lemma SupplementIdByRequestRepeats()
    ensures
      var supplements := [Supplement("s1", "b1", "T", 1, "BV-0001", Some(10000))];
      var data := SupplementPatch(Some("ML-0002"), None);
      var s := Supplement("s2", "b1", "T", SupplementIdByRequest(supplements, "b1", data), "ML-0002", None);
      && SupplementIdsDistinct(supplements)
      && s.BookingSupplementID == 1
      && !SupplementIdsDistinct(supplements + [s])
  {
    var supplements := [Supplement("s1", "b1", "T", 1, "BV-0001", Some(10000))];
    var data := SupplementPatch(Some("ML-0002"), None);
    assert !MatchesSupplementRequest(supplements[0], "b1", data);
    assert SupplementIdsMatching(supplements[1..], "b1", data) == [];
    var s := Supplement("s2", "b1", "T", SupplementIdByRequest(supplements, "b1", data), "ML-0002", None);
    assert s.BookingSupplementID == 1;
    var r := supplements + [s];
    assert r[0].BookingUUID == r[1].BookingUUID && r[0].BookingSupplementID == r[1].BookingSupplementID;
  }

  // ---------------------------------------------------------------------
  // SAVE validation
  // ---------------------------------------------------------------------

  /** An error collected with `req.error(status, message, target)`. */
  datatype RequestError = RequestError(status: int, message: string, target: string)

  const BeginDateInPast := RequestError(400, "Begin Date must not be before today.", "in/BeginDate")
  const EndBeforeBegin := RequestError(400, "End Date must be after Begin Date.", "in/EndDate")

  /**
   * The errors SAVE collects for a travel; the travel is saved only when there
   * are none. A missing date compares false in JavaScript (`null < d` and
   * `d > undefined` are both false), so it raises neither error.
   */
  function SaveErrors(travel: Travel, today: Date): (r: seq<RequestError>)
    ensures BeginDateInPast in r <==> travel.BeginDate.Some? && travel.BeginDate.value < today
    ensures EndBeforeBegin in r <==>
      travel.BeginDate.Some? && travel.EndDate.Some? && travel.BeginDate.value > travel.EndDate.value
    ensures travel.BeginDate.Some? && travel.EndDate.Some? ==>
      (r == [] <==> today <= travel.BeginDate.value <= travel.EndDate.value)
    ensures travel.BeginDate.None? ==> r == []
    ensures travel.EndDate.None? ==> (r == [] <==> travel.BeginDate.None? || today <= travel.BeginDate.value)
    ensures forall e :: e in r ==> e == BeginDateInPast || e == EndBeforeBegin
    ensures |r| == 2 ==> r == [BeginDateInPast, EndBeforeBegin]
  {
    match (travel.BeginDate, travel.EndDate)
    case (None, _) => []
    case (Some(begin), None) => if begin < today then [BeginDateInPast] else []
    case (Some(begin), Some(end)) =>
      (if begin < today then [BeginDateInPast] else [])
      + (if begin > end then [EndBeforeBegin] else [])
  }

  // ---------------------------------------------------------------------
  // Trees-for-Tickets: the green fee
  // ---------------------------------------------------------------------

  /** `round(BookingFee * 0.1, 0)` as a whole number; NULL stays NULL. */
  function TenthOfFeeRounded(fee: Option<Milli>): (r: Option<int>)
    ensures r.Some? <==> fee.Some?
    ensures fee.Some? ==> 2 * Abs(10000 * r.value - fee.value) <= 10000
    ensures fee.Some? && 2 * Abs(10000 * r.value - fee.value) == 10000 ==> Abs(10000 * r.value) > Abs(fee.value)
    ensures fee.Some? && fee.value >= 0 ==> r.value >= 0
  {
    match fee
    case None => None
    case Some(f) => Some(RoundDiv(f, 10000))
  }

  /** The GreenFee that update_totalsGreen stores: a tenth of the fee rounded to whole units if GoGreen, else 0. */
  function GreenFeeFor(goGreen: bool, fee: Option<Milli>): (r: Option<Milli>)
    ensures !goGreen ==> r == Some(0)
    ensures goGreen ==> (r.Some? <==> fee.Some?)
    ensures goGreen && fee.Some? ==> r.value % 1000 == 0 && 2 * Abs(10 * r.value - fee.value) <= 10000
    ensures goGreen && fee.Some? && 2 * Abs(10 * r.value - fee.value) == 10000 ==> Abs(10 * r.value) > Abs(fee.value)
    ensures goGreen && fee.Some? && fee.value >= 0 ==> r.value >= 0
  {
    if !goGreen then Some(0)
    else match TenthOfFeeRounded(fee)
      case None => None
      case Some(k) => Some(1000 * k)
  }

  /** The TreesPlanted that update_totalsGreen stores: the same rounded tenth, as a count. */
  function TreesPlantedFor(goGreen: bool, fee: Option<Milli>): (r: Option<int>)
    ensures !goGreen ==> r == Some(0)
    ensures goGreen ==> r == TenthOfFeeRounded(fee)
  {
    if goGreen then TenthOfFeeRounded(fee) else Some(0)
  }

  /** One tree is planted per whole currency unit of green fee. */
  lemma TreesMatchGreenFee(goGreen: bool, fee: Option<Milli>)
    ensures GreenFeeFor(goGreen, fee).Some? <==> TreesPlantedFor(goGreen, fee).Some?
    ensures GreenFeeFor(goGreen, fee).Some? ==>
      GreenFeeFor(goGreen, fee).value == 1000 * TreesPlantedFor(goGreen, fee).value
  {
  }

  // ---------------------------------------------------------------------
  // Totals: the UPDATE statement of update_totals
  // ---------------------------------------------------------------------

  /** What one booking adds to `coalesce(sum(FlightPrice), 0)` for a travel. */
  function FlightShare(b: Booking, travel: Uuid): (r: int)
    ensures b.TravelUUID != travel ==> r == 0
    ensures b.TravelUUID == travel ==> r == Coalesce(b.FlightPrice)
  {
    if b.TravelUUID == travel then Coalesce(b.FlightPrice) else 0
  }

  /** What one supplement adds to `coalesce(sum(Price), 0)` for a travel. */
  function SupplementShare(s: Supplement, travel: Uuid): (r: int)
    ensures s.TravelUUID != travel ==> r == 0
    ensures s.TravelUUID == travel ==> r == Coalesce(s.Price)
  {
    if s.TravelUUID == travel then Coalesce(s.Price) else 0
  }

  /** `coalesce(sum(FlightPrice), 0)` over the bookings of a travel (sum skips NULLs). */
  function FlightPriceSum(bookings: seq<Booking>, travel: Uuid): int
  {
    if bookings == [] then 0 else FlightShare(bookings[0], travel) + FlightPriceSum(bookings[1..], travel)
  }

  /** `coalesce(sum(Price), 0)` over the supplements of a travel. */
  function SupplementPriceSum(supplements: seq<Supplement>, travel: Uuid): int
  {
    if supplements == [] then 0
    else SupplementShare(supplements[0], travel) + SupplementPriceSum(supplements[1..], travel)
  }

  /** The TotalPrice that update_totals stores for the travel with key `id`. */
  function ExpectedTotal(id: Uuid, t: Travel, bookings: seq<Booking>, supplements: seq<Supplement>): Milli
  {
    Coalesce(t.BookingFee) + Coalesce(t.GreenFee)
    + FlightPriceSum(bookings, id) + SupplementPriceSum(supplements, id)
  }

  /** The flight sum of a travel is 0 when none of its bookings has a FlightPrice, and never negative for non-negative prices. */
  lemma {:induction false} FlightPriceSumBounds(bookings: seq<Booking>, travel: Uuid)
    ensures (forall b :: b in bookings ==> b.TravelUUID != travel || b.FlightPrice.None?) ==> FlightPriceSum(bookings, travel) == 0
    ensures (forall b :: b in bookings && b.TravelUUID == travel ==> Coalesce(b.FlightPrice) >= 0) ==>
      FlightPriceSum(bookings, travel) >= 0
  {
    if bookings != [] {
      assert bookings[0] in bookings;
      assert forall b :: b in bookings[1..] ==> b in bookings;
      FlightPriceSumBounds(bookings[1..], travel);
    }
  }

  /** The supplement sum of a travel is 0 when none of its supplements has a Price, and never negative for non-negative prices. */
  lemma {:induction false} SupplementPriceSumBounds(supplements: seq<Supplement>, travel: Uuid)
    ensures (forall s :: s in supplements ==> s.TravelUUID != travel || s.Price.None?) ==>
      SupplementPriceSum(supplements, travel) == 0
    ensures (forall s :: s in supplements && s.TravelUUID == travel ==> Coalesce(s.Price) >= 0) ==>
      SupplementPriceSum(supplements, travel) >= 0
  {
    if supplements != [] {
      assert supplements[0] in supplements;
      assert forall s :: s in supplements[1..] ==> s in supplements;
      SupplementPriceSumBounds(supplements[1..], travel);
    }
  }

  /**
   * TotalPrice is BookingFee plus GreenFee for a travel without bookings or
   * supplements, and at least that much when all prices are non-negative.
   */
  lemma ExpectedTotalBounds(id: Uuid, t: Travel, bookings: seq<Booking>, supplements: seq<Supplement>)
    ensures (forall b :: b in bookings ==> b.TravelUUID != id) && (forall s :: s in supplements ==> s.TravelUUID != id) ==>
      ExpectedTotal(id, t, bookings, supplements) == Coalesce(t.BookingFee) + Coalesce(t.GreenFee)
    ensures
      ((forall b :: b in bookings && b.TravelUUID == id ==> Coalesce(b.FlightPrice) >= 0) &&
       (forall s :: s in supplements && s.TravelUUID == id ==> Coalesce(s.Price) >= 0))
      ==> ExpectedTotal(id, t, bookings, supplements) >= Coalesce(t.BookingFee) + Coalesce(t.GreenFee)
  {
    FlightPriceSumBounds(bookings, id);
    SupplementPriceSumBounds(supplements, id);
  }

  /** The derived columns of a travel agree with the rows they are derived from. */
  ghost predicate DerivedCurrent(id: Uuid, t: Travel, bookings: seq<Booking>, supplements: seq<Supplement>): (r: bool)
    ensures r ==> t.TotalPrice.Some? && (t.GreenFee.Some? <==> t.TreesPlanted.Some?)
    ensures r && !t.GoGreen ==>
      && t.GreenFee == Some(0) && t.TreesPlanted == Some(0)
      && t.TotalPrice == Some(Coalesce(t.BookingFee) + FlightPriceSum(bookings, id) + SupplementPriceSum(supplements, id))
  {
    && t.GreenFee == GreenFeeFor(t.GoGreen, t.BookingFee)
    && t.TreesPlanted == TreesPlantedFor(t.GoGreen, t.BookingFee)
    && t.TotalPrice == Some(ExpectedTotal(id, t, bookings, supplements))
  }

  /**
   * The travel after update_totalsGreen and the total UPDATE: GreenFee and
   * TreesPlanted from BookingFee and GoGreen, then TotalPrice from the new GreenFee.
   */
  function Refreshed(id: Uuid, t: Travel, bookings: seq<Booking>, supplements: seq<Supplement>): (r: Travel)
    ensures DerivedCurrent(id, r, bookings, supplements)
    ensures r == t.(GreenFee := r.GreenFee, TreesPlanted := r.TreesPlanted, TotalPrice := r.TotalPrice)
  {
    var green := t.(GreenFee := GreenFeeFor(t.GoGreen, t.BookingFee),
                    TreesPlanted := TreesPlantedFor(t.GoGreen, t.BookingFee));
    green.(TotalPrice := Some(ExpectedTotal(id, green, bookings, supplements)))
  }

  lemma {:induction false} FlightSumAppend(bookings: seq<Booking>, b: Booking, travel: Uuid)
    ensures FlightPriceSum(bookings + [b], travel) == FlightPriceSum(bookings, travel) + FlightShare(b, travel)
  {
    if bookings != [] {
      assert (bookings + [b])[1..] == bookings[1..] + [b];
      FlightSumAppend(bookings[1..], b, travel);
    }
  }

  lemma {:induction false} SupplementSumAppend(supplements: seq<Supplement>, s: Supplement, travel: Uuid)
    ensures SupplementPriceSum(supplements + [s], travel)
         == SupplementPriceSum(supplements, travel) + SupplementShare(s, travel)
  {
    if supplements != [] {
      assert (supplements + [s])[1..] == supplements[1..] + [s];
      SupplementSumAppend(supplements[1..], s, travel);
    }
  }

  /** Two booking tables whose rows contribute alike to a travel give it the same sum. */
  lemma {:induction false} FlightSumPointwise(bookings: seq<Booking>, bookings': seq<Booking>, travel: Uuid)
    requires |bookings| == |bookings'|
    requires forall i :: 0 <= i < |bookings| ==> FlightShare(bookings[i], travel) == FlightShare(bookings'[i], travel)
    ensures FlightPriceSum(bookings, travel) == FlightPriceSum(bookings', travel)
  {
    if bookings != [] {
      FlightSumPointwise(bookings[1..], bookings'[1..], travel);
    }
  }

  lemma {:induction false} SupplementSumPointwise(supplements: seq<Supplement>, supplements': seq<Supplement>, travel: Uuid)
    requires |supplements| == |supplements'|
    requires forall i :: 0 <= i < |supplements| ==>
      SupplementShare(supplements[i], travel) == SupplementShare(supplements'[i], travel)
    ensures SupplementPriceSum(supplements, travel) == SupplementPriceSum(supplements', travel)
  {
    if supplements != [] {
      SupplementSumPointwise(supplements[1..], supplements'[1..], travel);
    }
  }

  // ---------------------------------------------------------------------
  // The framework's generic UPDATE and DELETE of draft rows (`next()`)
  // ---------------------------------------------------------------------

  /** The columns an UPDATE of a Travel draft carries; None means absent from `req.data`. */
  datatype TravelPatch = TravelPatch(
    BookingFee: Option<Milli>,
    GoGreen: Option<bool>,
    BeginDate: Option<Date>,
    EndDate: Option<Date>,
    Description: Option<string>)
  {
    function Keys(): set<string>
    {
      {"TravelUUID"}
      + (if BookingFee.Some? then {"BookingFee"} else {})
      + (if GoGreen.Some? then {"GoGreen"} else {})
      + (if BeginDate.Some? then {"BeginDate"} else {})
      + (if EndDate.Some? then {"EndDate"} else {})
      + (if Description.Some? then {"Description"} else {})
    }
  }

  datatype BookingPatch = BookingPatch(FlightDate: Option<Date>, FlightPrice: Option<Milli>)
  {
    function Keys(): set<string>
    {
      {"BookingUUID"}
      + (if FlightDate.Some? then {"FlightDate"} else {})
      + (if FlightPrice.Some? then {"FlightPrice"} else {})
    }
  }

  datatype SupplementPatch = SupplementPatch(SupplementID: Option<string>, Price: Option<Milli>)
  {
    function Keys(): set<string>
    {
      {"BookSupplUUID"}
      + (if SupplementID.Some? then {"SupplementID"} else {})
      + (if Price.Some? then {"Price"} else {})
    }
  }

  /** The watched columns of each UPDATE handler. */
  const TravelWatched: seq<string> := ["BookingFee", "GoGreen"]
  const BookingWatched: seq<string> := ["FlightPrice"]
  const SupplementWatched: seq<string> := ["Price"]

  /**
   * Whether update_totals recomputes: always for a DELETE (no field list),
   * and for an UPDATE when some watched field is in the request data.
   */
  predicate Recomputes(fields: Option<seq<string>>, keys: set<string>): (r: bool)
    ensures fields.None? ==> r
    ensures fields.Some? ==> (r <==> exists i :: 0 <= i < |fields.value| && fields.value[i] in keys)
  {
    fields.None? || exists f :: f in fields.value && f in keys
  }

  lemma TravelRecomputesExactly(p: TravelPatch)
    ensures Recomputes(Some(TravelWatched), p.Keys()) <==> p.BookingFee.Some? || p.GoGreen.Some?
  {
    if p.BookingFee.Some? {
      assert TravelWatched[0] in TravelWatched && "BookingFee" in p.Keys();
    } else if p.GoGreen.Some? {
      assert TravelWatched[1] in TravelWatched && "GoGreen" in p.Keys();
    }
  }

  lemma BookingRecomputesExactly(p: BookingPatch)
    ensures Recomputes(Some(BookingWatched), p.Keys()) <==> p.FlightPrice.Some?
  {
    if p.FlightPrice.Some? {
      assert BookingWatched[0] in BookingWatched && "FlightPrice" in p.Keys();
    }
  }

  lemma SupplementRecomputesExactly(p: SupplementPatch)
    ensures Recomputes(Some(SupplementWatched), p.Keys()) <==> p.Price.Some?
  {
    if p.Price.Some? {
      assert SupplementWatched[0] in SupplementWatched && "Price" in p.Keys();
    }
  }

  function PatchTravel(t: Travel, p: TravelPatch): (r: Travel)
    ensures r.TotalPrice == t.TotalPrice && r.GreenFee == t.GreenFee && r.TreesPlanted == t.TreesPlanted
    ensures r.TravelID == t.TravelID && r.TravelStatus == t.TravelStatus
    ensures r.BookingFee == (if p.BookingFee.Some? then p.BookingFee else t.BookingFee)
    ensures r.GoGreen == (if p.GoGreen.Some? then p.GoGreen.value else t.GoGreen)
    ensures r.BeginDate == (if p.BeginDate.Some? then p.BeginDate else t.BeginDate)
    ensures r.EndDate == (if p.EndDate.Some? then p.EndDate else t.EndDate)
    ensures r.Description == (if p.Description.Some? then p.Description.value else t.Description)
  {
    t.(BookingFee := if p.BookingFee.Some? then p.BookingFee else t.BookingFee,
       GoGreen := if p.GoGreen.Some? then p.GoGreen.value else t.GoGreen,
       BeginDate := if p.BeginDate.Some? then p.BeginDate else t.BeginDate,
       EndDate := if p.EndDate.Some? then p.EndDate else t.EndDate,
       Description := if p.Description.Some? then p.Description.value else t.Description)
  }

  function PatchBooking(b: Booking, p: BookingPatch): (r: Booking)
    ensures r.BookingUUID == b.BookingUUID && r.TravelUUID == b.TravelUUID && r.BookingID == b.BookingID
    ensures r.BookingDate == b.BookingDate
    ensures r.FlightDate == (if p.FlightDate.Some? then p.FlightDate else b.FlightDate)
    ensures p.FlightPrice.None? ==> r.FlightPrice == b.FlightPrice
    ensures p.FlightPrice.Some? ==> r.FlightPrice == p.FlightPrice
  {
    b.(FlightDate := if p.FlightDate.Some? then p.FlightDate else b.FlightDate,
       FlightPrice := if p.FlightPrice.Some? then p.FlightPrice else b.FlightPrice)
  }

  function PatchSupplement(s: Supplement, p: SupplementPatch): (r: Supplement)
    ensures r.BookSupplUUID == s.BookSupplUUID && r.BookingUUID == s.BookingUUID && r.TravelUUID == s.TravelUUID
    ensures r.BookingSupplementID == s.BookingSupplementID
    ensures r.SupplementID == (if p.SupplementID.Some? then p.SupplementID.value else s.SupplementID)
    ensures p.Price.None? ==> r.Price == s.Price
    ensures p.Price.Some? ==> r.Price == p.Price
  {
    s.(SupplementID := if p.SupplementID.Some? then p.SupplementID.value else s.SupplementID,
       Price := if p.Price.Some? then p.Price else s.Price)
  }

  /** `SELECT.one ... from Booking.drafts where BookingUUID = id`: the first row with the key. */
  function FindBooking(bookings: seq<Booking>, id: Uuid): (r: Option<Booking>)
    ensures r.Some? ==> r.value in bookings && r.value.BookingUUID == id
    ensures r.None? <==> forall b :: b in bookings ==> b.BookingUUID != id
  {
    if bookings == [] then None
    else if bookings[0].BookingUUID == id then Some(bookings[0])
    else
      assert bookings == [bookings[0]] + bookings[1..];
      FindBooking(bookings[1..], id)
  }

  /** `SELECT.one ... from BookingSupplement.drafts where BookSupplUUID = id`. */
  function FindSupplement(supplements: seq<Supplement>, id: Uuid): (r: Option<Supplement>)
    ensures r.Some? ==> r.value in supplements && r.value.BookSupplUUID == id
    ensures r.None? <==> forall s :: s in supplements ==> s.BookSupplUUID != id
  {
    if supplements == [] then None
    else if supplements[0].BookSupplUUID == id then Some(supplements[0])
    else
      assert supplements == [supplements[0]] + supplements[1..];
      FindSupplement(supplements[1..], id)
  }

  /** `UPDATE Booking.drafts ... WHERE BookingUUID = id`: every row with the key is patched. */
  function PatchBookings(bookings: seq<Booking>, id: Uuid, p: BookingPatch): (r: seq<Booking>)
    ensures |r| == |bookings|
    ensures forall i :: 0 <= i < |r| ==>
      r[i] == if bookings[i].BookingUUID == id then PatchBooking(bookings[i], p) else bookings[i]
  {
    seq(|bookings|, i requires 0 <= i < |bookings| =>
      if bookings[i].BookingUUID == id then PatchBooking(bookings[i], p) else bookings[i])
  }

  function PatchSupplements(supplements: seq<Supplement>, id: Uuid, p: SupplementPatch): (r: seq<Supplement>)
    ensures |r| == |supplements|
    ensures forall i :: 0 <= i < |r| ==>
      r[i] == if supplements[i].BookSupplUUID == id then PatchSupplement(supplements[i], p) else supplements[i]
  {
    seq(|supplements|, i requires 0 <= i < |supplements| =>
      if supplements[i].BookSupplUUID == id then PatchSupplement(supplements[i], p) else supplements[i])
  }

  /** `DELETE FROM Booking.drafts WHERE BookingUUID = id`. */
  function DeleteBookingRows(bookings: seq<Booking>, id: Uuid): (r: seq<Booking>)
    ensures forall b :: b in r <==> b in bookings && b.BookingUUID != id
  {
    if bookings == [] then []
    else
      var rest := DeleteBookingRows(bookings[1..], id);
      assert bookings == [bookings[0]] + bookings[1..];
      if bookings[0].BookingUUID == id then rest else [bookings[0]] + rest
  }

  /** `DELETE FROM BookingSupplement.drafts WHERE BookSupplUUID = id`. */
  function DeleteSupplementRows(supplements: seq<Supplement>, id: Uuid): (r: seq<Supplement>)
    ensures forall s :: s in r <==> s in supplements && s.BookSupplUUID != id
  {
    if supplements == [] then []
    else
      var rest := DeleteSupplementRows(supplements[1..], id);
      assert supplements == [supplements[0]] + supplements[1..];
      if supplements[0].BookSupplUUID == id then rest else [supplements[0]] + rest
  }

  /** The supplements a booking's deletion takes with it (the booking composes its supplements). */
  function DeleteSupplementsOf(supplements: seq<Supplement>, booking: Uuid): (r: seq<Supplement>)
    ensures forall s :: s in r <==> s in supplements && s.BookingUUID != booking
  {
    if supplements == [] then []
    else
      var rest := DeleteSupplementsOf(supplements[1..], booking);
      assert supplements == [supplements[0]] + supplements[1..];
      if supplements[0].BookingUUID == booking then rest else [supplements[0]] + rest
  }

  /** Deleting bookings that do not belong to a travel leaves that travel's flight sum alone. */
  lemma {:induction false} FlightSumAfterDelete(bookings: seq<Booking>, id: Uuid, travel: Uuid)
    requires forall b :: b in bookings && b.BookingUUID == id ==> b.TravelUUID != travel
    ensures FlightPriceSum(DeleteBookingRows(bookings, id), travel) == FlightPriceSum(bookings, travel)
  {
    if bookings != [] {
      assert bookings[0] in bookings;
      assert forall b :: b in bookings[1..] ==> b in bookings;
      FlightSumAfterDelete(bookings[1..], id, travel);
    }
  }

  lemma {:induction false} SupplementSumAfterDelete(supplements: seq<Supplement>, id: Uuid, travel: Uuid)
    requires forall s :: s in supplements && s.BookSupplUUID == id ==> s.TravelUUID != travel
    ensures SupplementPriceSum(DeleteSupplementRows(supplements, id), travel) == SupplementPriceSum(supplements, travel)
  {
    if supplements != [] {
      assert supplements[0] in supplements;
      assert forall s :: s in supplements[1..] ==> s in supplements;
      SupplementSumAfterDelete(supplements[1..], id, travel);
    }
  }

  lemma {:induction false} SupplementSumAfterCascade(supplements: seq<Supplement>, booking: Uuid, travel: Uuid)
    requires forall s :: s in supplements && s.BookingUUID == booking ==> s.TravelUUID != travel
    ensures SupplementPriceSum(DeleteSupplementsOf(supplements, booking), travel)
         == SupplementPriceSum(supplements, travel)
  {
    if supplements != [] {
      assert supplements[0] in supplements;
      assert forall s :: s in supplements[1..] ==> s in supplements;
      SupplementSumAfterCascade(supplements[1..], booking, travel);
    }
  }

  /** Patching bookings changes a travel's flight sum only if a patched row belongs to it and the patch sets FlightPrice. */
  lemma FlightSumAfterPatch(bookings: seq<Booking>, id: Uuid, p: BookingPatch, travel: Uuid)
    requires p.FlightPrice.None? || forall b :: b in bookings && b.BookingUUID == id ==> b.TravelUUID != travel
    ensures FlightPriceSum(PatchBookings(bookings, id, p), travel) == FlightPriceSum(bookings, travel)
  {
    var r := PatchBookings(bookings, id, p);
    forall i | 0 <= i < |bookings| ensures FlightShare(bookings[i], travel) == FlightShare(r[i], travel) {
      assert bookings[i] in bookings;
    }
    FlightSumPointwise(bookings, r, travel);
  }

  lemma SupplementSumAfterPatch(supplements: seq<Supplement>, id: Uuid, p: SupplementPatch, travel: Uuid)
    requires p.Price.None? || forall s :: s in supplements && s.BookSupplUUID == id ==> s.TravelUUID != travel
    ensures SupplementPriceSum(PatchSupplements(supplements, id, p), travel) == SupplementPriceSum(supplements, travel)
  {
    var r := PatchSupplements(supplements, id, p);
    forall i | 0 <= i < |supplements| ensures SupplementShare(supplements[i], travel) == SupplementShare(r[i], travel) {
      assert supplements[i] in supplements;
    }
    SupplementSumPointwise(supplements, r, travel);
  }

  // ---------------------------------------------------------------------
  // Actions
  // ---------------------------------------------------------------------

  /** The row filter of deductDiscount's UPDATE: `TravelStatus.code != 'A' and BookingFee != null` (a NULL status matches neither way). */
  predicate DiscountApplies(t: Travel): (r: bool)
    ensures r ==> t.BookingFee.Some? && t.TravelStatus != Some(Accepted)
    ensures t.BookingFee.Some? && (t.TravelStatus == Some(Open) || t.TravelStatus == Some(Canceled)) ==> r
    ensures t.TravelStatus.None? ==> !r
  {
    t.TravelStatus.Some? && t.TravelStatus.value != Accepted && t.BookingFee.Some?
  }

  /**
   * The row after `TotalPrice = round(TotalPrice - BookingFee * p/100, 3)` and
   * `BookingFee = round(BookingFee - BookingFee * p/100, 3)`, both from the old
   * BookingFee; a NULL TotalPrice stays NULL.
   */
  function WithDiscount(t: Travel, percent: int): (r: Travel)
    requires t.BookingFee.Some?
    ensures r.BookingFee.Some? && 2 * Abs(100 * r.BookingFee.value - t.BookingFee.value * (100 - percent)) <= 100
    ensures 2 * Abs(100 * r.BookingFee.value - t.BookingFee.value * (100 - percent)) == 100 ==>
      Abs(100 * r.BookingFee.value) > Abs(t.BookingFee.value * (100 - percent))
    ensures r.TotalPrice.Some? <==> t.TotalPrice.Some?
    ensures t.TotalPrice.Some? ==>
      2 * Abs(100 * r.TotalPrice.value - (100 * t.TotalPrice.value - t.BookingFee.value * percent)) <= 100
    ensures t.TotalPrice.Some?
      && 2 * Abs(100 * r.TotalPrice.value - (100 * t.TotalPrice.value - t.BookingFee.value * percent)) == 100
      ==> Abs(100 * r.TotalPrice.value) > Abs(100 * t.TotalPrice.value - t.BookingFee.value * percent)
    ensures r == t.(BookingFee := r.BookingFee, TotalPrice := r.TotalPrice)
  {
    var fee := t.BookingFee.value;
    t.(TotalPrice := match t.TotalPrice
                     case None => None
                     case Some(total) => Some(RoundDiv(100 * total - fee * percent, 100)),
       BookingFee := Some(RoundDiv(100 * fee - fee * percent, 100)))
  }

  /**
   * A discount keeps TotalPrice equal to BookingFee plus the rest of the total
   * (green fee, flights, supplements) when the amounts are non-negative and the
   * percentage is at most 100: both roundings move by the same whole amount.
   */
  lemma DiscountKeepsTotalEquation(t: Travel, percent: int, rest: Milli)
    requires t.BookingFee.Some? && t.BookingFee.value >= 0 && rest >= 0
    requires 0 <= percent <= 100
    requires t.TotalPrice == Some(t.BookingFee.value + rest)
    ensures WithDiscount(t, percent).TotalPrice == Some(WithDiscount(t, percent).BookingFee.value + rest)
  {
    var fee := t.BookingFee.value;
    var n := fee * (100 - percent);
    assert n >= 0 by { MulNonNeg(fee, 100 - percent); }
    assert 100 * (fee + rest) - fee * percent == n + rest * 100;
    assert 100 * fee - fee * percent == n;
    RoundDivShift(n, rest, 100);
  }

  lemma MulNonNeg(a: int, b: int)
    requires a >= 0 && b >= 0
    ensures a * b >= 0
  {
  }

  /** The discounted BookingFee lies between 0 and the old fee. */
  lemma DiscountedFeeBounds(t: Travel, percent: int)
    requires t.BookingFee.Some? && t.BookingFee.value >= 0
    requires 0 <= percent <= 100
    ensures 0 <= WithDiscount(t, percent).BookingFee.value <= t.BookingFee.value
  {
    var fee := t.BookingFee.value;
    var n := fee * (100 - percent);
    assert 100 * fee - fee * percent == n;
    assert 0 <= n <= 100 * fee by { MulNonNeg(fee, 100 - percent); MulNonNeg(fee, percent); }
    var r := RoundDiv(n, 100);
    assert 2 * Abs(n - r * 100) <= 100;
  }
}

=== FILE: travel_store.dfy ===
/**
 * TravelService's event handlers over the draft tables: the ID-assigning
 * NEW and CREATE hooks, the UPDATE and DELETE handlers that go through
 * update_totals, and the actions acceptTravel, rejectTravel and
 * deductDiscount.
 *
 * An error thrown by a handler rolls back the request's transaction, so a
 * handler that fails leaves every table as it was.
 */
module TravelHandlers {
  import opened Wrappers
  import opened Money
  import opened TravelRules

  /** Why a request failed. */
  datatype HandlerError =
    | NotFound      // the framework's UPDATE or DELETE found no row with the key
    | MissingRow    // a handler read a field of a row that SELECT.one did not find (a TypeError)
    | DuplicateKey  // a new draft's key is already taken

  datatype Outcome = Done | Failed(reason: HandlerError)

  /** How deductDiscount ends. */
  datatype DiscountOutcome =
    | Discounted       // the row was updated and is returned
    | TravelMissing    // no travel with the key: the request fails (the 404 message reads ID of the missing row, so it fails with a TypeError)
    | ApprovedAlready  // 400: "Travel ... has been approved already."
    | NoBookingFee     // 404: "No discount possible, ... does not yet have a booking fee added."
    | NoEffect         // no row updated and no guard fired: the handler returns nothing

  /**
   * How deductDiscount ends for the row SELECT.one returns: the UPDATE's
   * filter first, then the guards in the handler's order.
   */
  function DiscountOutcomeOf(row: Option<Travel>): (r: DiscountOutcome)
    ensures r == Discounted <==> row.Some? && DiscountApplies(row.value)
    ensures r == TravelMissing <==> row.None?
    ensures r == ApprovedAlready <==> row.Some? && row.value.TravelStatus == Some(Accepted)
    ensures r == NoBookingFee <==>
      row.Some? && row.value.TravelStatus != Some(Accepted) && row.value.BookingFee.None?
    ensures r == NoEffect <==> row.Some? && row.value.TravelStatus.None? && row.value.BookingFee.Some?
  {
    match row
    case None => TravelMissing
    case Some(t) =>
      if DiscountApplies(t) then Discounted
      else if t.TravelStatus == Some(Accepted) then ApprovedAlready
      else if t.BookingFee.None? then NoBookingFee
      else NoEffect
  }

  // ---------------------------------------------------------------------
  // Referential integrity of the draft tables
  // ---------------------------------------------------------------------

  /** All rows that share a BookingUUID belong to the same travel. */
  ghost predicate BookingKeyFixesTravel(bookings: seq<Booking>)
  {
    forall a, b :: a in bookings && b in bookings && a.BookingUUID == b.BookingUUID ==> a.TravelUUID == b.TravelUUID
  }

  /** All rows that share a BookSupplUUID belong to the same travel. */
  ghost predicate SupplementKeyFixesTravel(supplements: seq<Supplement>)
  {
    forall a, b :: a in supplements && b in supplements && a.BookSupplUUID == b.BookSupplUUID ==>
      a.TravelUUID == b.TravelUUID
  }

  /** Every supplement hangs under a booking of the same travel. */
  ghost predicate SupplementsHaveParents(bookings: seq<Booking>, supplements: seq<Supplement>)
  {
    forall s :: s in supplements ==>
      exists b :: b in bookings && b.BookingUUID == s.BookingUUID && b.TravelUUID == s.TravelUUID
  }

  ghost predicate Integrity(bookings: seq<Booking>, supplements: seq<Supplement>)
  {
    && BookingKeyFixesTravel(bookings)
    && SupplementKeyFixesTravel(supplements)
    && SupplementsHaveParents(bookings, supplements)
  }

  /** The travel with key `id` is a draft whose derived columns are current. */
  ghost predicate CurrentIn(drafts: map<Uuid, Travel>, bookings: seq<Booking>, supplements: seq<Supplement>, id: Uuid)
  {
    id in drafts && DerivedCurrent(id, drafts[id], bookings, supplements)
  }

  lemma PatchBookingsKeepsIntegrity(bookings: seq<Booking>, supplements: seq<Supplement>, id: Uuid, p: BookingPatch)
    requires Integrity(bookings, supplements)
    ensures Integrity(PatchBookings(bookings, id, p), supplements)
  {
    var r := PatchBookings(bookings, id, p);
    forall a, b | a in r && b in r && a.BookingUUID == b.BookingUUID ensures a.TravelUUID == b.TravelUUID {
      var i :| 0 <= i < |r| && r[i] == a;
      var j :| 0 <= j < |r| && r[j] == b;
      assert bookings[i] in bookings && bookings[j] in bookings;
    }
    forall s | s in supplements
      ensures exists b :: b in r && b.BookingUUID == s.BookingUUID && b.TravelUUID == s.TravelUUID
    {
      var b :| b in bookings && b.BookingUUID == s.BookingUUID && b.TravelUUID == s.TravelUUID;
      var i :| 0 <= i < |bookings| && bookings[i] == b;
      assert r[i] in r;
    }
  }

  lemma PatchSupplementsKeepsIntegrity(bookings: seq<Booking>, supplements: seq<Supplement>, id: Uuid, p: SupplementPatch)
    requires Integrity(bookings, supplements)
    ensures Integrity(bookings, PatchSupplements(supplements, id, p))
  {
    var r := PatchSupplements(supplements, id, p);
    forall a, b | a in r && b in r && a.BookSupplUUID == b.BookSupplUUID ensures a.TravelUUID == b.TravelUUID {
      var i :| 0 <= i < |r| && r[i] == a;
      var j :| 0 <= j < |r| && r[j] == b;
      assert supplements[i] in supplements && supplements[j] in supplements;
    }
    forall s | s in r
      ensures exists b :: b in bookings && b.BookingUUID == s.BookingUUID && b.TravelUUID == s.TravelUUID
    {
      var i :| 0 <= i < |r| && r[i] == s;
      assert supplements[i] in supplements;
    }
  }

  lemma DeleteBookingKeepsIntegrity(bookings: seq<Booking>, supplements: seq<Supplement>, id: Uuid)
    requires Integrity(bookings, supplements)
    ensures Integrity(DeleteBookingRows(bookings, id), DeleteSupplementsOf(supplements, id))
  {
    var bs := DeleteBookingRows(bookings, id);
    forall s | s in DeleteSupplementsOf(supplements, id)
      ensures exists b :: b in bs && b.BookingUUID == s.BookingUUID && b.TravelUUID == s.TravelUUID
    {
      var b :| b in bookings && b.BookingUUID == s.BookingUUID && b.TravelUUID == s.TravelUUID;
      assert b in bs;
    }
  }

  lemma DeleteSupplementKeepsIntegrity(bookings: seq<Booking>, supplements: seq<Supplement>, id: Uuid)
    requires Integrity(bookings, supplements)
    ensures Integrity(bookings, DeleteSupplementRows(supplements, id))
  {
  }

  lemma AppendBookingKeepsIntegrity(bookings: seq<Booking>, supplements: seq<Supplement>, b: Booking)
    requires Integrity(bookings, supplements)
    requires forall x :: x in bookings ==> x.BookingUUID != b.BookingUUID
    ensures Integrity(bookings + [b], supplements)
  {
    forall s | s in supplements
      ensures exists x :: x in bookings + [b] && x.BookingUUID == s.BookingUUID && x.TravelUUID == s.TravelUUID
    {
      var x :| x in bookings && x.BookingUUID == s.BookingUUID && x.TravelUUID == s.TravelUUID;
      assert x in bookings + [b];
    }
  }

  lemma AppendSupplementKeepsIntegrity(bookings: seq<Booking>, supplements: seq<Supplement>, s: Supplement, parent: Booking)
    requires Integrity(bookings, supplements)
    requires forall x :: x in supplements ==> x.BookSupplUUID != s.BookSupplUUID
    requires parent in bookings && parent.BookingUUID == s.BookingUUID && parent.TravelUUID == s.TravelUUID
    ensures Integrity(bookings, supplements + [s])
  {
  }

  /**
   * A new booking leaves every other travel's derived columns as current as
   * they were, and its own travel's too when it brings no FlightPrice.
   */
  lemma AppendBookingKeepsCurrent(drafts: map<Uuid, Travel>, bookings: seq<Booking>, supplements: seq<Supplement>, b: Booking)
    ensures forall k :: (k != b.TravelUUID || Coalesce(b.FlightPrice) == 0) && CurrentIn(drafts, bookings, supplements, k) ==>
      CurrentIn(drafts, bookings + [b], supplements, k)
  {
    forall k | (k != b.TravelUUID || Coalesce(b.FlightPrice) == 0) && CurrentIn(drafts, bookings, supplements, k)
      ensures CurrentIn(drafts, bookings + [b], supplements, k)
    {
      FlightSumAppend(bookings, b, k);
    }
  }

  /** A new booking that brings a non-zero FlightPrice leaves its travel's TotalPrice stale. */
  lemma AppendBookingMakesStale(drafts: map<Uuid, Travel>, bookings: seq<Booking>, supplements: seq<Supplement>, b: Booking)
    requires CurrentIn(drafts, bookings, supplements, b.TravelUUID) && Coalesce(b.FlightPrice) != 0
    ensures !CurrentIn(drafts, bookings + [b], supplements, b.TravelUUID)
  {
    FlightSumAppend(bookings, b, b.TravelUUID);
  }

  /**
   * A new supplement leaves every other travel's derived columns as current
   * as they were, and its own travel's too when it brings no Price.
   */
  lemma AppendSupplementKeepsCurrent(drafts: map<Uuid, Travel>, bookings: seq<Booking>, supplements: seq<Supplement>, s: Supplement)
    ensures forall k :: (k != s.TravelUUID || Coalesce(s.Price) == 0) && CurrentIn(drafts, bookings, supplements, k) ==>
      CurrentIn(drafts, bookings, supplements + [s], k)
  {
    forall k | (k != s.TravelUUID || Coalesce(s.Price) == 0) && CurrentIn(drafts, bookings, supplements, k)
      ensures CurrentIn(drafts, bookings, supplements + [s], k)
    {
      SupplementSumAppend(supplements, s, k);
    }
  }

  /** A new supplement that brings a non-zero Price leaves its travel's TotalPrice stale. */
  lemma AppendSupplementMakesStale(drafts: map<Uuid, Travel>, bookings: seq<Booking>, supplements: seq<Supplement>, s: Supplement)
    requires CurrentIn(drafts, bookings, supplements, s.TravelUUID) && Coalesce(s.Price) != 0
    ensures !CurrentIn(drafts, bookings, supplements + [s], s.TravelUUID)
  {
    SupplementSumAppend(supplements, s, s.TravelUUID);
  }

  /**
   * Patching the bookings with key `id` leaves current every travel the
   * bookings do not belong to, and every travel when FlightPrice is not set.
   */
  lemma PatchBookingsKeepsCurrent(drafts: map<Uuid, Travel>, bookings: seq<Booking>, supplements: seq<Supplement>,
                                  id: Uuid, p: BookingPatch, travel: Uuid)
    requires forall b :: b in bookings && b.BookingUUID == id ==> b.TravelUUID == travel
    ensures forall k :: (k != travel || p.FlightPrice.None?) && CurrentIn(drafts, bookings, supplements, k) ==>
      CurrentIn(drafts, PatchBookings(bookings, id, p), supplements, k)
  {
    forall k | (k != travel || p.FlightPrice.None?) && CurrentIn(drafts, bookings, supplements, k)
      ensures CurrentIn(drafts, PatchBookings(bookings, id, p), supplements, k)
    {
      FlightSumAfterPatch(bookings, id, p, k);
    }
  }

  lemma PatchSupplementsKeepsCurrent(drafts: map<Uuid, Travel>, bookings: seq<Booking>, supplements: seq<Supplement>,
                                     id: Uuid, p: SupplementPatch, travel: Uuid)
    requires forall s :: s in supplements && s.BookSupplUUID == id ==> s.TravelUUID == travel
    ensures forall k :: (k != travel || p.Price.None?) && CurrentIn(drafts, bookings, supplements, k) ==>
      CurrentIn(drafts, bookings, PatchSupplements(supplements, id, p), k)
  {
    forall k | (k != travel || p.Price.None?) && CurrentIn(drafts, bookings, supplements, k)
      ensures CurrentIn(drafts, bookings, PatchSupplements(supplements, id, p), k)
    {
      SupplementSumAfterPatch(supplements, id, p, k);
    }
  }

  /** Deleting a booking of `travel`, with its supplements, leaves every other travel current. */
  lemma DeleteBookingKeepsCurrent(drafts: map<Uuid, Travel>, bookings: seq<Booking>, supplements: seq<Supplement>,
                                  id: Uuid, travel: Uuid)
    requires Integrity(bookings, supplements)
    requires exists b :: b in bookings && b.BookingUUID == id && b.TravelUUID == travel
    ensures forall k :: k != travel && CurrentIn(drafts, bookings, supplements, k) ==>
      CurrentIn(drafts, DeleteBookingRows(bookings, id), DeleteSupplementsOf(supplements, id), k)
  {
    forall k | k != travel && CurrentIn(drafts, bookings, supplements, k)
      ensures CurrentIn(drafts, DeleteBookingRows(bookings, id), DeleteSupplementsOf(supplements, id), k)
    {
      forall s | s in supplements && s.BookingUUID == id ensures s.TravelUUID != k {
        var b :| b in bookings && b.BookingUUID == s.BookingUUID && b.TravelUUID == s.TravelUUID;
      }
      FlightSumAfterDelete(bookings, id, k);
      SupplementSumAfterCascade(supplements, id, k);
    }
  }

  lemma DeleteSupplementKeepsCurrent(drafts: map<Uuid, Travel>, bookings: seq<Booking>, supplements: seq<Supplement>,
                                     id: Uuid, travel: Uuid)
    requires forall s :: s in supplements && s.BookSupplUUID == id ==> s.TravelUUID == travel
    ensures forall k :: k != travel && CurrentIn(drafts, bookings, supplements, k) ==>
      CurrentIn(drafts, bookings, DeleteSupplementRows(supplements, id), k)
  {
    forall k | k != travel && CurrentIn(drafts, bookings, supplements, k)
      ensures CurrentIn(drafts, bookings, DeleteSupplementRows(supplements, id), k)
    {
      SupplementSumAfterDelete(supplements, id, k);
    }
  }

  /** Refreshing `travel` keeps every travel current that was current before it, and makes `travel` current. */
  lemma RefreshKeepsCurrent(drafts: map<Uuid, Travel>, bookings: seq<Booking>, supplements: seq<Supplement>, travel: Uuid)
    requires travel in drafts
    ensures CurrentIn(drafts[travel := Refreshed(travel, drafts[travel], bookings, supplements)], bookings, supplements, travel)
    ensures forall k :: CurrentIn(drafts, bookings, supplements, k) ==>
      CurrentIn(drafts[travel := Refreshed(travel, drafts[travel], bookings, supplements)], bookings, supplements, k)
  {
    var drafts' := drafts[travel := Refreshed(travel, drafts[travel], bookings, supplements)];
    forall k | CurrentIn(drafts, bookings, supplements, k) ensures CurrentIn(drafts', bookings, supplements, k) {
      if k != travel {
        assert drafts'[k] == drafts[k];
      }
    }
  }

  // ---------------------------------------------------------------------
  // The store
  // ---------------------------------------------------------------------

  class TravelStore {
    /** The active Travel rows; CREATE numbers a new travel after them. */
    var actives: seq<Travel>
    /** The Travel drafts, by TravelUUID. */
    var drafts: map<Uuid, Travel>
    var bookings: seq<Booking>
    var supplements: seq<Supplement>

    ghost predicate Valid()
      reads this
    {
      Integrity(bookings, supplements)
    }

    constructor ()
      ensures Valid()
      ensures actives == [] && drafts == map[] && bookings == [] && supplements == []
    {
      actives, drafts, bookings, supplements := [], map[], [], [];
    }

    /** CREATE of a Travel: TravelID becomes the largest existing TravelID plus one. */
    method CreateTravel(data: Travel) returns (t: Travel)
      requires Valid()
      ensures Valid()
      modifies this`actives
      ensures t == data.(TravelID := NewTravelId(old(actives)))
      ensures forall a :: a in old(actives) ==> a.TravelID < t.TravelID
      ensures actives == old(actives) + [t]
    {
      var maxId := MaxOf(TravelIds(actives));
      var next := if maxId.Some? then maxId.value + 1 else 1;
      t := data.(TravelID := next);
      actives := actives + [t];
    }

    /**
     * NEW of a Booking draft under `travel`, with the other columns of the
     * request in `data`: BookingID is the largest BookingID under that travel
     * plus one and BookingDate is today. This is the intended numbering; the
     * hook as written (BookingIdByRequest) also filters on the request's
     * columns and agrees with it when the request carries only the parent
     * key. NEW does not go through update_totals, so a FlightPrice that comes
     * with the request is not added to the travel's TotalPrice.
     */
    method NewBooking(id: Uuid, travel: Uuid, data: BookingPatch, today: Date) returns (r: Result<Booking, HandlerError>)
      requires Valid()
      modifies this`bookings
      ensures Valid()
      ensures FindBooking(old(bookings), id).Some? ==> r == Failure(DuplicateKey) && bookings == old(bookings)
      ensures FindBooking(old(bookings), id).None? ==>
        && r == Success(Booking(id, travel, NewBookingId(old(bookings), travel), today, data.FlightDate, data.FlightPrice))
        && bookings == old(bookings) + [r.value]
      ensures r.Success? ==> forall b :: b in old(bookings) && b.TravelUUID == travel ==> b.BookingID < r.value.BookingID
      ensures BookingIdsDistinct(old(bookings)) ==> BookingIdsDistinct(bookings)
      ensures r.Success? && data.FlightDate.None? && data.FlightPrice.None? ==>
        r.value.BookingID == BookingIdByRequest(old(bookings), travel, data)
      ensures forall k :: (k != travel || Coalesce(data.FlightPrice) == 0) && CurrentIn(drafts, old(bookings), supplements, k) ==>
        CurrentIn(drafts, bookings, supplements, k)
      ensures r.Success? && Coalesce(data.FlightPrice) != 0 && CurrentIn(drafts, old(bookings), supplements, travel) ==>
        !CurrentIn(drafts, bookings, supplements, travel)
    {
      if FindBooking(bookings, id).Some? {
        return Failure(DuplicateKey);
      }
      var b := Booking(id, travel, NewBookingId(bookings, travel), today, data.FlightDate, data.FlightPrice);
      AppendBookingKeepsIntegrity(bookings, supplements, b);
      if BookingIdsDistinct(bookings) {
        NewBookingIdKeepsDistinct(bookings, b);
      }
      if data.FlightDate.None? && data.FlightPrice.None? {
        BookingIdByRequestParentOnly(bookings, travel, data);
      }
      AppendBookingKeepsCurrent(drafts, bookings, supplements, b);
      if CurrentIn(drafts, bookings, supplements, travel) && Coalesce(data.FlightPrice) != 0 {
        AppendBookingMakesStale(drafts, bookings, supplements, b);
      }
      bookings := bookings + [b];
      r := Success(b);
    }

    /**
     * NEW of a Supplement draft under booking `booking`, with the other
     * columns of the request in `data`: BookingSupplementID is the largest
     * under that booking plus one, the intended numbering (the hook as
     * written is SupplementIdByRequest). The supplement belongs to the booking's
     * travel. A Price that comes with the request is not added to the
     * travel's TotalPrice.
     */
    method NewSupplement(id: Uuid, booking: Uuid, data: SupplementPatch) returns (r: Result<Supplement, HandlerError>)
      requires Valid()
      modifies this`supplements
      ensures Valid()
      ensures FindBooking(bookings, booking).None? ==> r == Failure(NotFound) && supplements == old(supplements)
      ensures FindBooking(bookings, booking).Some? && FindSupplement(old(supplements), id).Some? ==>
        r == Failure(DuplicateKey) && supplements == old(supplements)
      ensures FindBooking(bookings, booking).Some? && FindSupplement(old(supplements), id).None? ==>
        && r == Success(Supplement(id, booking, FindBooking(bookings, booking).value.TravelUUID,
                                   NewSupplementId(old(supplements), booking),
                                   if data.SupplementID.Some? then data.SupplementID.value else "", data.Price))
        && supplements == old(supplements) + [r.value]
      ensures r.Success? ==> forall s :: s in old(supplements) && s.BookingUUID == booking ==>
        s.BookingSupplementID < r.value.BookingSupplementID
      ensures SupplementIdsDistinct(old(supplements)) ==> SupplementIdsDistinct(supplements)
      ensures r.Success? && data.SupplementID.None? && data.Price.None? ==>
        r.value.BookingSupplementID == SupplementIdByRequest(old(supplements), booking, data)
      ensures forall k ::
        (r.Failure? || k != r.value.TravelUUID || Coalesce(data.Price) == 0) && CurrentIn(drafts, bookings, old(supplements), k)
        ==> CurrentIn(drafts, bookings, supplements, k)
      ensures r.Success? && Coalesce(data.Price) != 0 && CurrentIn(drafts, bookings, old(supplements), r.value.TravelUUID) ==>
        !CurrentIn(drafts, bookings, supplements, r.value.TravelUUID)
    {
      var parent := FindBooking(bookings, booking);
      if parent.None? {
        return Failure(NotFound);
      }
      if FindSupplement(supplements, id).Some? {
        return Failure(DuplicateKey);
      }
      var supplementId := if data.SupplementID.Some? then data.SupplementID.value else "";
      var s := Supplement(id, booking, parent.value.TravelUUID, NewSupplementId(supplements, booking), supplementId, data.Price);
      AppendSupplementKeepsIntegrity(bookings, supplements, s, parent.value);
      if SupplementIdsDistinct(supplements) {
        NewSupplementIdKeepsDistinct(supplements, s);
      }
      if data.SupplementID.None? && data.Price.None? {
        SupplementIdByRequestParentOnly(supplements, booking, data);
      }
      AppendSupplementKeepsCurrent(drafts, bookings, supplements, s);
      if CurrentIn(drafts, bookings, supplements, s.TravelUUID) && Coalesce(data.Price) != 0 {
        AppendSupplementMakesStale(drafts, bookings, supplements, s);
      }
      supplements := supplements + [s];
      r := Success(s);
    }

    /** update_totalsGreen followed by the UPDATE of TotalPrice, for the travel with key `travel`. */
    method UpdateTotals(travel: Uuid)
      requires Valid()
      ensures Valid()
      requires travel in drafts
      modifies this`drafts
      ensures drafts == old(drafts)[travel := Refreshed(travel, old(drafts)[travel], bookings, supplements)]
      ensures CurrentIn(drafts, bookings, supplements, travel)
    {
      var t := drafts[travel];
      if t.GoGreen {
        var tenth := if t.BookingFee.Some? then Some(RoundDiv(t.BookingFee.value, 10000)) else None;
        t := t.(GreenFee := if tenth.Some? then Some(1000 * tenth.value) else None, TreesPlanted := tenth);
      } else {
        t := t.(GreenFee := Some(0), TreesPlanted := Some(0));
      }
      drafts := drafts[travel := t];
      var total := Coalesce(t.BookingFee) + Coalesce(t.GreenFee)
                   + FlightPriceSum(bookings, travel) + SupplementPriceSum(supplements, travel);
      drafts := drafts[travel := t.(TotalPrice := Some(total))];
    }

    /**
     * UPDATE of a Travel draft: the patch is applied and, when it carries
     * BookingFee or GoGreen, the travel's totals are recomputed.
     */
    method UpdateTravel(id: Uuid, p: TravelPatch) returns (r: Outcome)
      requires Valid()
      modifies this`drafts
      ensures Valid()
      ensures id !in old(drafts) ==> r == Failed(NotFound) && drafts == old(drafts)
      ensures id in old(drafts) && !Recomputes(Some(TravelWatched), p.Keys()) ==>
        r == Done && drafts == old(drafts)[id := PatchTravel(old(drafts)[id], p)]
      ensures id in old(drafts) && Recomputes(Some(TravelWatched), p.Keys()) ==>
        && r == Done
        && drafts == old(drafts)[id := Refreshed(id, PatchTravel(old(drafts)[id], p), bookings, supplements)]
        && CurrentIn(drafts, bookings, supplements, id)
      ensures forall k :: CurrentIn(old(drafts), bookings, supplements, k) ==> CurrentIn(drafts, bookings, supplements, k)
    {
      if id !in drafts {
        return Failed(NotFound);
      }
      TravelRecomputesExactly(p);
      if !Recomputes(Some(TravelWatched), p.Keys()) {
        drafts := drafts[id := PatchTravel(drafts[id], p)];
        return Done;
      }
      drafts := drafts[id := PatchTravel(drafts[id], p)];
      RefreshKeepsCurrent(drafts, bookings, supplements, id);
      UpdateTotals(id);
      r := Done;
    }

    /**
     * UPDATE of a Booking draft: the patch is applied and, when it carries
     * FlightPrice, the totals of the booking's travel are recomputed.
     */
    method UpdateBooking(id: Uuid, p: BookingPatch) returns (r: Outcome)
      requires Valid()
      modifies this`bookings, this`drafts
      ensures Valid()
      ensures !Recomputes(Some(BookingWatched), p.Keys()) ==>
        if FindBooking(old(bookings), id).None? then
          r == Failed(NotFound) && bookings == old(bookings) && drafts == old(drafts)
        else
          r == Done && bookings == PatchBookings(old(bookings), id, p) && drafts == old(drafts)
      ensures Recomputes(Some(BookingWatched), p.Keys()) ==>
        var found := FindBooking(old(bookings), id);
        if found.None? || found.value.TravelUUID !in old(drafts) then
          r == Failed(MissingRow) && bookings == old(bookings) && drafts == old(drafts)
        else
          var travel := found.value.TravelUUID;
          && r == Done
          && bookings == PatchBookings(old(bookings), id, p)
          && drafts == old(drafts)[travel := Refreshed(travel, old(drafts)[travel], bookings, supplements)]
          && CurrentIn(drafts, bookings, supplements, travel)
      ensures forall k :: CurrentIn(old(drafts), old(bookings), supplements, k) ==> CurrentIn(drafts, bookings, supplements, k)
    {
      BookingRecomputesExactly(p);
      var found := FindBooking(bookings, id);
      if !Recomputes(Some(BookingWatched), p.Keys()) {
        if found.None? {
          return Failed(NotFound);
        }
        PatchBookingsKeepsIntegrity(bookings, supplements, id, p);
        PatchBookingsKeepsCurrent(drafts, bookings, supplements, id, p, found.value.TravelUUID);
        bookings := PatchBookings(bookings, id, p);
        return Done;
      }
      if found.None? {
        return Failed(MissingRow);
      }
      var travel := found.value.TravelUUID;
      if travel !in drafts {
        return Failed(MissingRow);
      }
      PatchBookingsKeepsIntegrity(bookings, supplements, id, p);
      PatchBookingsKeepsCurrent(drafts, bookings, supplements, id, p, travel);
      bookings := PatchBookings(bookings, id, p);
      RefreshKeepsCurrent(drafts, bookings, supplements, travel);
      UpdateTotals(travel);
      r := Done;
    }

    /**
     * UPDATE of a Supplement draft: the patch is applied and, when it
     * carries Price, the totals of the supplement's travel are recomputed.
     */
    method UpdateSupplement(id: Uuid, p: SupplementPatch) returns (r: Outcome)
      requires Valid()
      modifies this`supplements, this`drafts
      ensures Valid()
      ensures !Recomputes(Some(SupplementWatched), p.Keys()) ==>
        if FindSupplement(old(supplements), id).None? then
          r == Failed(NotFound) && supplements == old(supplements) && drafts == old(drafts)
        else
          r == Done && supplements == PatchSupplements(old(supplements), id, p) && drafts == old(drafts)
      ensures Recomputes(Some(SupplementWatched), p.Keys()) ==>
        var found := FindSupplement(old(supplements), id);
        if found.None? || found.value.TravelUUID !in old(drafts) then
          r == Failed(MissingRow) && supplements == old(supplements) && drafts == old(drafts)
        else
          var travel := found.value.TravelUUID;
          && r == Done
          && supplements == PatchSupplements(old(supplements), id, p)
          && drafts == old(drafts)[travel := Refreshed(travel, old(drafts)[travel], bookings, supplements)]
          && CurrentIn(drafts, bookings, supplements, travel)
      ensures forall k :: CurrentIn(old(drafts), bookings, old(supplements), k) ==> CurrentIn(drafts, bookings, supplements, k)
    {
      SupplementRecomputesExactly(p);
      var found := FindSupplement(supplements, id);
      if !Recomputes(Some(SupplementWatched), p.Keys()) {
        if found.None? {
          return Failed(NotFound);
        }
        PatchSupplementsKeepsIntegrity(bookings, supplements, id, p);
        PatchSupplementsKeepsCurrent(drafts, bookings, supplements, id, p, found.value.TravelUUID);
        supplements := PatchSupplements(supplements, id, p);
        return Done;
      }
      if found.None? {
        return Failed(MissingRow);
      }
      var travel := found.value.TravelUUID;
      if travel !in drafts {
        return Failed(MissingRow);
      }
      PatchSupplementsKeepsIntegrity(bookings, supplements, id, p);
      PatchSupplementsKeepsCurrent(drafts, bookings, supplements, id, p, travel);
      supplements := PatchSupplements(supplements, id, p);
      RefreshKeepsCurrent(drafts, bookings, supplements, travel);
      UpdateTotals(travel);
      r := Done;
    }

    /**
     * DELETE of a Booking draft, with the supplements it composes; the
     * totals of its travel are recomputed.
     */
    method DeleteBooking(id: Uuid) returns (r: Outcome)
      requires Valid()
      modifies this`bookings, this`supplements, this`drafts
      ensures Valid()
      ensures
        var found := FindBooking(old(bookings), id);
        if found.None? || found.value.TravelUUID !in old(drafts) then
          && r == Failed(MissingRow)
          && bookings == old(bookings) && supplements == old(supplements) && drafts == old(drafts)
        else
          var travel := found.value.TravelUUID;
          && r == Done
          && bookings == DeleteBookingRows(old(bookings), id)
          && supplements == DeleteSupplementsOf(old(supplements), id)
          && drafts == old(drafts)[travel := Refreshed(travel, old(drafts)[travel], bookings, supplements)]
          && CurrentIn(drafts, bookings, supplements, travel)
      ensures forall k :: CurrentIn(old(drafts), old(bookings), old(supplements), k) ==>
        CurrentIn(drafts, bookings, supplements, k)
    {
      var found := FindBooking(bookings, id);
      if found.None? {
        return Failed(MissingRow);
      }
      var travel := found.value.TravelUUID;
      if travel !in drafts {
        return Failed(MissingRow);
      }
      DeleteBookingKeepsIntegrity(bookings, supplements, id);
      DeleteBookingKeepsCurrent(drafts, bookings, supplements, id, travel);
      bookings := DeleteBookingRows(bookings, id);
      supplements := DeleteSupplementsOf(supplements, id);
      RefreshKeepsCurrent(drafts, bookings, supplements, travel);
      UpdateTotals(travel);
      r := Done;
    }

    /** DELETE of a Supplement draft; the totals of its travel are recomputed. */
    method DeleteSupplement(id: Uuid) returns (r: Outcome)
      requires Valid()
      modifies this`supplements, this`drafts
      ensures Valid()
      ensures
        var found := FindSupplement(old(supplements), id);
        if found.None? || found.value.TravelUUID !in old(drafts) then
          r == Failed(MissingRow) && supplements == old(supplements) && drafts == old(drafts)
        else
          var travel := found.value.TravelUUID;
          && r == Done
          && supplements == DeleteSupplementRows(old(supplements), id)
          && drafts == old(drafts)[travel := Refreshed(travel, old(drafts)[travel], bookings, supplements)]
          && CurrentIn(drafts, bookings, supplements, travel)
      ensures forall k :: CurrentIn(old(drafts), bookings, old(supplements), k) ==> CurrentIn(drafts, bookings, supplements, k)
    {
      var found := FindSupplement(supplements, id);
      if found.None? {
        return Failed(MissingRow);
      }
      var travel := found.value.TravelUUID;
      if travel !in drafts {
        return Failed(MissingRow);
      }
      DeleteSupplementKeepsIntegrity(bookings, supplements, id);
      DeleteSupplementKeepsCurrent(drafts, bookings, supplements, id, travel);
      supplements := DeleteSupplementRows(supplements, id);
      RefreshKeepsCurrent(drafts, bookings, supplements, travel);
      UpdateTotals(travel);
      r := Done;
    }

    /** acceptTravel: the status becomes Accepted; nothing else changes. */
    method AcceptTravel(id: Uuid)
      requires Valid()
      ensures Valid()
      modifies this`drafts
      ensures id in old(drafts) ==> drafts == old(drafts)[id := old(drafts)[id].(TravelStatus := Some(Accepted))]
      ensures id !in old(drafts) ==> drafts == old(drafts)
      ensures forall k :: CurrentIn(old(drafts), bookings, supplements, k) ==> CurrentIn(drafts, bookings, supplements, k)
    {
      if id in drafts {
        drafts := drafts[id := drafts[id].(TravelStatus := Some(Accepted))];
      }
    }

    /** rejectTravel: the status becomes Canceled; nothing else changes. */
    method RejectTravel(id: Uuid)
      requires Valid()
      ensures Valid()
      modifies this`drafts
      ensures id in old(drafts) ==> drafts == old(drafts)[id := old(drafts)[id].(TravelStatus := Some(Canceled))]
      ensures id !in old(drafts) ==> drafts == old(drafts)
      ensures forall k :: CurrentIn(old(drafts), bookings, supplements, k) ==> CurrentIn(drafts, bookings, supplements, k)
    {
      if id in drafts {
        drafts := drafts[id := drafts[id].(TravelStatus := Some(Canceled))];
      }
    }

    /**
     * deductDiscount: reduces BookingFee and TotalPrice by `percent` percent
     * of the old BookingFee, unless the travel is accepted or has no fee.
     */
    method DeductDiscount(id: Uuid, percent: int) returns (r: DiscountOutcome)
      requires Valid()
      ensures Valid()
      modifies this`drafts
      ensures r == DiscountOutcomeOf(if id in old(drafts) then Some(old(drafts)[id]) else None)
      ensures r == Discounted ==> drafts == old(drafts)[id := WithDiscount(old(drafts)[id], percent)]
      ensures r != Discounted ==> drafts == old(drafts)
    {
      if id in drafts && DiscountApplies(drafts[id]) {
        var t := drafts[id];
        var fee := t.BookingFee.value;
        var total := if t.TotalPrice.Some? then Some(RoundDiv(100 * t.TotalPrice.value - fee * percent, 100)) else None;
        drafts := drafts[id := t.(TotalPrice := total, BookingFee := Some(RoundDiv(100 * fee - fee * percent, 100)))];
        return Discounted;
      }
      if id !in drafts {
        return TravelMissing;
      }
      var travel := drafts[id];
      if travel.TravelStatus == Some(Accepted) {
        return ApprovedAlready;
      }
      if travel.BookingFee.None? {
        return NoBookingFee;
      }
      r := NoEffect;
    }
  }
}

=== FILE: wrappers.dfy ===
/** Option and Result, used for nullable columns and for handler failures. */
module Wrappers {
  datatype Option<+T> = None | Some(value: T)

  datatype Result<+R, +E> = Success(value: R) | Failure(error: E)

  /** SQL `coalesce(x, 0)`: a NULL amount counts as zero. */
  function Coalesce(x: Option<int>): (r: int)
    ensures x.Some? ==> r == x.value
    ensures x.None? ==> r == 0
  {
    match x
    case Some(v) => v
    case None => 0
  }
}
